=== FILE: README.md ===
# Postcard composition core, modelled in Dafny

This project models the image-composition core of the postcard service. It
covers:

- the message wrapper `process_message_with_line_breaks`, which turns a
  free-text message into the lines drawn on the card back;
- the photo template engine, which fits photos into a front layout by
  centre-cropping each to its cell. It comes in three copies:
  - the canonical `TemplateEngine` with ten templates;
  - the older copy embedded in the postcard service, with five templates
    and a fallback to `single`;
  - the legacy engine in `utils`, with four templates and strict rejection;
- the monthly coupon code, taken from the month 32 days after today;
- the layout of the postcard back: return address and its rule, message
  rows, recipient block, logo and promotional panel;
- the bookkeeping of `generate_complete_postcard_service`: which path makes
  the front, what happens when it fails, the back upload's fallback, and the
  upsert into the in-memory transaction store.

Pixels are out of scope. A drawn piece of text is reduced to where it goes
and what it says, and a pasted photo to its cell and crop box. Everything the
source gets from outside is a parameter:

- text widths: a measure `(text, font size) -> width`, standing in for
  `draw.textlength` and `draw.textbbox`;
- image sizes: a fetch function from url to an optional size, where `None`
  stands for a failed download;
- today's date;
- the logo's size;
- the outcome of each upload.

## Modules

| file | module | what it holds |
|---|---|---|
| results.dfy | Results | `Option` and `Result` |
| text.dfy | Text | Python's `str.isspace`, `strip`, `split()`, `split("\n")` and `join` on `seq<char>`, with their round trips |
| wrap.dfy | Wrap | the greedy message wrapper and its specification (packed lines, words kept in order, blank lines kept) |
| geometry.dfy | Geometry | sizes, rectangles, containment and disjointness |
| crop.dfy | Crop | `_resize_and_crop`: the centred crop box and the exact output size |
| layouts.dfy | Layouts | canvas sizes, the ten layouts, `int(x * 0.7)` on doubles, tiling and coverage |
| engines.dfy | Engines | the dispatch of the three engine copies, placeholder images, rendering |
| calendar.dfy | Calendar | proleptic Gregorian day arithmetic, `date + timedelta(days=32)`, the coupon code |
| requests.dfy | Requests | `Recipient` and `PostcardRequest` with their optional fields |
| backface.dfy | BackFace | the layout of the postcard back |
| generation.dfy | Generation | front path, fallbacks, store upsert, response |

Notes on how the code behaves, which the model follows:

- The promotional panel shows the code for the month that is 32 days ahead
  of today. That month is sometimes two months ahead, which
  `Calendar.CouponMonthAhead` pins down.
- Return-address lines are drawn whatever their width; only the first three
  newline-separated segments are looked at, and blank ones among them are
  skipped.
- How an unknown template name is treated depends on the engine copy:
  - the legacy engine rejects it;
  - the embedded engine treats it as `single`, which fails on an empty
    photo list;
  - the canonical engine's fallback branch takes `image_urls[0]` without a
    count check, so an empty list raises `IndexError` (modelled as
    `NoPhoto`).
- "xl" has two canvas sizes in the code, and both are kept:
  - the template engines and the direct front path use 2700x1800;
  - the back uses 2754x1872 for every size other than "regular".

## Model

| member | source | states |
|---|---|---|
| Wrap.WrapSegmentSpec | PostcardService/app/utils/fonts.py:73-101 | a user line yields at least one line; it yields exactly one empty line iff it is blank; otherwise every line is its words joined by single spaces, a line wider than the limit holds a single word, and no line could have taken the next line's first word; the lines hold exactly the segment's words, in order |
| Wrap.GreedyIsPlain | PostcardService/app/utils/fonts.py:83-98 | for words coming from `split()`, the `strip()` in the trial line never changes it, so the loop equals the same loop without `strip()` |
| Wrap.WrapMessageWords | PostcardService/app/utils/fonts.py:65-104 | the words of all lines `WrapMessage` (the model of `process_message_with_line_breaks`) returns are the words of the whole message, in order: wrapping loses, adds and reorders nothing |
| Wrap.WrapMessageIsolation | PostcardService/app/utils/fonts.py:70-72 | wrapping `a + "\n" + b` gives wrap(a) followed by wrap(b): user lines never merge |
| Wrap.BlankLineKept | PostcardService/app/utils/fonts.py:73-77 | a blank line between two parts becomes exactly one empty output line between their wrappings |
| Wrap.WrapMessageCounts | PostcardService/app/utils/fonts.py:70-104 | there are at least as many output lines as user lines, and the empty output lines are exactly the blank user lines, one each |
| Wrap.OneWordSegment | PostcardService/app/utils/fonts.py:80-101 | a single word is one line whatever its width: over-wide words are never split |
| Wrap.WrapEmptyMessage | PostcardService/app/utils/fonts.py:70-77 | the empty message wraps to one empty line |
| Text.StripEmptyIffBlank | PostcardService/app/utils/fonts.py:74 | `strip()` is empty exactly when the text is all whitespace |
| Text.TrimTail | PostcardService/app/services/postcard_generation_service.py:403 | what `strip(chars)` removes at the back is a run of those characters only |
| Text.TrimUnique | PostcardService/app/services/postcard_generation_service.py:403 | `strip(chars)` is the one way to cut a string into a run of those characters, a middle that neither starts nor ends with one, and another such run |
| Text.WordsKeepLetters | PostcardService/app/utils/fonts.py:80 | `split()` drops exactly the whitespace: the words' characters are the text's non-space characters, in order |
| Text.WordsOfJoin | PostcardService/app/utils/fonts.py:84 | splitting words joined by single spaces gives the words back |
| Text.JoinSplitOn | PostcardService/app/utils/fonts.py:70 | joining `split("\n")` with newlines gives the message back |
| Text.SplitOnJoin | PostcardService/app/services/postcard_generation_service.py:350 | `split("\n")` of newline-free lines joined with newlines gives the lines back |
| Crop.ResizeAndCrop | PostcardService/app/services/template_engine.py:37-58 | the result has exactly the target size; the crop box lies inside the source; a wider source keeps its full height and otherwise the full width; the box is centred to within one pixel; along the cut axis it is the largest box of the target's aspect |
| Crop.SquareIntoWideCell | PostcardService/app/services/template_engine.py:45-52 | a 400x400 placeholder cropped for a 1340x890 cell keeps rows 67 to 331 |
| Crop.PanoramaIntoSquareCell | PostcardService/utils/templateEngine.py:44-50 | a 400x200 photo cropped for a square cell keeps columns 100 to 299 |
| Layouts.EngineCanvas | PostcardService/app/services/template_engine.py:12-17 | "xl" gets 2700x1800 and every other size 1800x1200 |
| Layouts.SevenTenths | PostcardService/app/services/template_engine.py:279-280 | `int(x * 0.7)` is the exact floor of 7x/10 or one less, and exactly the floor unless x is a multiple of ten |
| Layouts.SevenTenthsOf1340 | PostcardService/app/services/template_engine.py:279 | `int(1340 * 0.7)` is 937, not 938 |
| Layouts.LayoutUsesFirstPhotos | PostcardService/app/services/template_engine.py:119-420 | every layout pastes photos 0 to n-1, each once and in order, where n is the number its dispatch branch demands |
| Layouts.LayoutFits | PostcardService/app/services/template_engine.py:119-420 | every cell of every `Layout` (the pastes each `_apply_*` makes, in order) lies inside the canvas with positive size; every layout other than five_collage keeps its gap (20 px, or 15 px for the newer templates) between any two cells; the cells reach to within 2 px of the right and bottom edges |
| Layouts.QuartersFit | PostcardService/utils/templateEngine.py:124-158 | the four quarters lie inside the canvas, 20 px apart, and reach to within 2 px of its right and bottom edges |
| Layouts.ThreePhotosFits | PostcardService/utils/templateEngine.py:91-122 | the three-photo cells lie inside the canvas, 20 px apart, and reach to within 2 px of its right and bottom edges |
| Layouts.SixGridFits | PostcardService/app/services/template_engine.py:297-335 | the six grid cells lie inside the canvas, 15 px apart, and reach to within 2 px of its right and bottom edges |
| Layouts.ThreeHorizontalFits | PostcardService/app/services/template_engine.py:337-363 | the three columns lie inside the canvas, 15 px apart, and reach to within 2 px of its right and bottom edges |
| Layouts.ThreeBookmarksFit | PostcardService/app/services/template_engine.py:365-392 | the three strips lie inside the canvas, 15 px apart, and reach to within 2 px of its right and bottom edges |
| Layouts.ThreeSidewaysFits | PostcardService/app/services/template_engine.py:394-422 | the top strip and the two bottom cells lie inside the canvas, 15 px apart |
| Layouts.FiveCollageFits | PostcardService/app/services/template_engine.py:244-295 | all six five_collage pastes lie inside the canvas and reach its edges |
| Layouts.FiveCollageOverlay | PostcardService/app/services/template_engine.py:244-295 | five_collage is four tiled quarters, then a white panel, then photo 4; photo 4 is 0.7 of a quarter in each dimension, framed by 8 px of panel on every side; the panel is centred to within a pixel and overlaps all four quarters, which makes it the layout's only overlap |
| Layouts.FiveCollageOnXL | PostcardService/app/services/template_engine.py:266-293 | on the XL canvas the panel is 953x639 at (873, 580) and photo 4 is 937x623 at (881, 588) |
| Layouts.FiveCollageOnRegular | PostcardService/app/services/template_engine.py:266-293 | on the regular canvas the panel is 639x429 at (580, 385) and photo 4 is 623x413 at (588, 393) |
| Layouts.ThreeSidewaysReachesBottom | PostcardService/app/services/template_engine.py:402-420 | the top strip is `int(0.4 * height)` tall; the bottom cells start 15 px below it and end at the bottom edge |
| Engines.Parse | PostcardService/app/services/template_engine.py:64-112 | a parsed template name is the template's own name |
| Engines.ParseName | PostcardService/app/services/template_engine.py:64-112 | every template's name parses back to that template |
| Engines.Lookup | PostcardService/app/services/postcard_generation_service.py:102-134 | a name is found exactly when the engine copy knows a template of that name, and then it is that template |
| Engines.SupportedTemplates | PostcardService/utils/templateEngine.py:160-167 | four names, which are exactly those the legacy engine accepts |
| Engines.Loaded | PostcardService/app/services/template_engine.py:19-35 | a failed download becomes a 400x400 placeholder; either way the image has a positive size |
| Engines.Cut | PostcardService/app/services/template_engine.py:37-58 | a photo is cut to exactly its cell's size from a box inside the loaded image |
| Engines.Render | PostcardService/app/services/template_engine.py:119-420 | a rendered front has the engine's canvas and one paste per layout cell, in the layout's order: paste i sits at cell i, is a photo exactly when the cell is, and then shows the url of that cell's photo index, cut to the cell's size |
| Engines.PastesFollow | PostcardService/app/services/template_engine.py:119-420 | pasting any layout that fits the canvas and uses only the first n photos puts paste i at cell i, a photo exactly when the cell is one, showing that cell's url and cut to the cell's size |
| Engines.RenderKeepsGaps | PostcardService/app/services/template_engine.py:119-420 | on the rendered front of every template but five_collage, any two pastes stay the template's gap apart |
| Engines.RenderStacksCollage | PostcardService/app/services/template_engine.py:244-295 | five_collage pastes photos 0 to 3 as quarters, then the white panel, then photo 4 inside the panel and on top of it |
| Engines.TooFewIff | PostcardService/app/services/template_engine.py:60-112 | `Apply` (the model of `apply_template` in all three copies) fails for too few photos exactly when the engine copy knows the template and fewer photos than it needs are given |
| Engines.UnknownFallsBack | PostcardService/app/services/template_engine.py:114-117 | in the canonical and embedded copies an unknown name behaves as "single", and fails exactly when there is no photo at all |
| Engines.UnsupportedIff | PostcardService/utils/templateEngine.py:169-194 | only the legacy engine rejects a name as unsupported, and it does so exactly for names outside its list |
| Engines.CopiesAgree | PostcardService/app/services/postcard_generation_service.py:102-134 | for any template an engine copy knows, it produces the canonical engine's result |
| Engines.EmbeddedIgnoresNewTemplates | PostcardService/app/services/postcard_generation_service.py:131-134 | the embedded copy renders a template it does not know as "single", with exactly one paste |
| Engines.CanonicalRendersLayout | PostcardService/app/services/template_engine.py:60-112 | with enough photos the canonical engine succeeds, with one paste per layout cell |
| Engines.FrontFits | PostcardService/app/services/template_engine.py:60-117 | every successful front has the engine canvas and at least one paste; every paste lies inside the canvas; every photo paste has its cell's size and one of the given urls |
| Calendar.AddDaysOrdinal | PostcardService/app/services/postcard_generation_service.py:259 | adding n days month by month moves the date exactly n days on an independent day count, which is Python's `toordinal` |
| Calendar.AddDays | PostcardService/app/services/postcard_generation_service.py:259 | adding days always lands on a valid day of a valid month |
| Calendar.CouponCode | PostcardService/app/services/postcard_generation_service.py:257-261 | the code exists exactly when 32 days ahead is still within year 9999; it is "XLWelcome" followed by the three-letter name of that date's month |
| Calendar.CouponMonthAhead | PostcardService/app/services/postcard_generation_service.py:257-261 | the code's month is one or two months after today's, never today's; it is two exactly when 32 days overrun the rest of this month and all of the next |
| Calendar.CouponSkipsFebruary | PostcardService/app/services/postcard_generation_service.py:259-261 | on 31 January 2026 the code is XLWelcomeMar |
| Calendar.CouponInOctober | PostcardService/app/services/postcard_generation_service.py:259-261 | on 10 October 2026 the code is XLWelcomeNov |
| Calendar.CouponInDecember | PostcardService/app/services/postcard_generation_service.py:259-261 | in mid-December the code is for January of the next year |
| BackFace.BackCanvas | PostcardService/app/services/postcard_generation_service.py:319-322 | only "regular" gets 1800x1200; every other size gets 2754x1872 |
| BackFace.TextWidth | PostcardService/app/services/postcard_generation_service.py:376 | the message is wrapped at 1400 px exactly for "xl" and at 900 px otherwise |
| BackFace.ReturnLines | PostcardService/app/services/postcard_generation_service.py:345-361 | at most three return lines, none empty and none with surrounding whitespace; none at all when the text is empty, blank or the placeholder |
| BackFace.ReturnLinesOfTidyLines | PostcardService/app/services/postcard_generation_service.py:345-361 | one to three non-empty trimmed lines joined by newlines are drawn back exactly as given |
| BackFace.BlankHeadDrawsNothing | PostcardService/app/services/postcard_generation_service.py:350-351 | when the first three lines are blank, nothing is drawn, whatever follows |
| BackFace.ReturnAddressBeyondThirdLine | PostcardService/app/services/postcard_generation_service.py:345-363 | a return address on its fourth line passes the guard but draws no line and no rule |
| BackFace.MessageStart | PostcardService/app/services/postcard_generation_service.py:342-368 | the message starts at y 150 without return lines, and at 108 + 40k + 50 after k of them |
| BackFace.Separator | PostcardService/app/services/postcard_generation_service.py:363-368 | a rule is drawn exactly when some return line was drawn; it runs from x 108 to the text width, 30 px above the message |
| BackFace.MessageRows | PostcardService/app/services/postcard_generation_service.py:380-390 | at most 20 rows are drawn, each at x 108 in the 40 px body font, each visible, and all within 20 slots of 50 px from the start |
| BackFace.MessageRowsAre | PostcardService/app/services/postcard_generation_service.py:384-390 | the rows drawn are exactly the non-blank lines among the first 20, each at the start plus 50 px times its index |
| BackFace.VisibleLinesDrawn | PostcardService/app/services/postcard_generation_service.py:384-390 | every non-blank line among the first twenty is drawn in its own 50 px slot |
| BackFace.DrawnRowsAreLines | PostcardService/app/services/postcard_generation_service.py:384-390 | every drawn row is one of the first twenty lines, in its own slot |
| BackFace.MessageRowsDescend | PostcardService/app/services/postcard_generation_service.py:384-390 | the message rows go strictly down the card |
| BackFace.AddressLines | PostcardService/app/services/postcard_generation_service.py:399-404 | the recipient block is the name, first line, second line and city line, in that order, each only when non-empty; so it has at most four lines, none empty, and holds exactly those strings |
| BackFace.CityLine | PostcardService/app/services/postcard_generation_service.py:403 | the city line is empty exactly when the formatted text is only commas and spaces; otherwise it neither starts nor ends with one; a text with tidy ends is kept whole |
| BackFace.CityLineStrips | PostcardService/app/services/postcard_generation_service.py:403 | the city line is the formatted text with only its leading and trailing run of commas and spaces removed, the middle unchanged |
| BackFace.EmptyCityStripped | PostcardService/app/services/postcard_generation_service.py:403 | an empty city with state "MA" and zip "02101" gives "MA 02101": the leading ", " is removed |
| BackFace.FullRecipient | PostcardService/app/services/postcard_generation_service.py:399-404 | a complete recipient gives four lines in order, the last being "city, state zip" |
| BackFace.BlankCityDropped | PostcardService/app/services/postcard_generation_service.py:403 | empty city, state and zip give an empty city line, which is dropped |
| BackFace.MissingCityShown | PostcardService/app/services/postcard_generation_service.py:403 | missing city, state and zip print as "None, None None" |
| BackFace.AddressX | PostcardService/app/services/postcard_generation_service.py:395 | the recipient block starts 800 px from the right edge on "xl" and 680 px otherwise |
| BackFace.AddressBlockRows | PostcardService/app/services/postcard_generation_service.py:394-406 | line i of the recipient block is drawn at 360 - 46i px above the bottom edge, in the 36 px font |
| BackFace.LogoBox | PostcardService/app/services/postcard_generation_service.py:432-445 | the logo is 600 px wide on "xl" and 400 px otherwise, keeps its aspect to within a pixel, and sits 50 px from the left and bottom edges |
| BackFace.LogoPlacement | PostcardService/app/services/postcard_generation_service.py:432-448 | a logo at most twice as tall as wide stays on the card and left of the recipient block |
| BackFace.PromoBox | PostcardService/app/services/postcard_generation_service.py:460-480 | the panel is 700x300 at 50 px from the right and 100 px from the top on "xl", and 500x220 at 40 px and 80 px otherwise |
| BackFace.CentredX | PostcardService/app/services/postcard_generation_service.py:514 | the left edge leaves equal margins on both sides, to within a pixel |
| BackFace.PromoPanel | PostcardService/app/services/postcard_generation_service.py:455-541 | the panel exists exactly when the coupon code does; it holds the four lines "Get XLPostcards App!", "Download from App/Play Store", "Code: " plus the code, and "First postcard FREE!", in fonts 36/28/32/28 on "xl" and 28/22/26/22 otherwise, each centred in the box by its own measured width; line spacing is 40 or 32 px, with the last step 10 px shorter |
| BackFace.BackLayout | PostcardService/app/services/postcard_generation_service.py:318-541 | the back has the back canvas and at most three return rows; it has a rule exactly when there are return rows; it has at most 20 message rows; it has a logo exactly when one is found and scales to a positive height, and then in the logo box; it has a panel exactly when the coupon code exists |
| BackFace.BackComposition | PostcardService/app/services/postcard_generation_service.py:342-541 | the back's return rows are the return lines placed 40 px apart from the margin; its rule is the separator for their count; its message rows are the wrapped message drawn from where the rule leaves it; its address rows are the recipient block placed 46 px apart from 360 px above the bottom; its promo panel is the modelled panel with its box, centred texts and code |
| BackFace.BackReadsDownwards | PostcardService/app/services/postcard_generation_service.py:342-390 | return rows lie above the rule and the rule above every message row; without a rule the message starts at y 150 or below |
| BackFace.PanelsApart | PostcardService/app/services/postcard_generation_service.py:394-476 | the panel lies on the card above the recipient block, and the message column ends left of that block |
| Generation.PlanFront | PostcardService/app/services/postcard_generation_service.py:571-596 | the template path is taken exactly when the engine is available, a template other than "single" is named, and some photo is given; the photo list wins over the single photo there, and the single photo wins on the direct path; there is no front photo exactly when neither path has a non-empty url |
| Generation.DirectSize | PostcardService/app/services/postcard_generation_service.py:602-606 | the direct path stretches the photo to the same canvas the template engines draw on |
| Generation.TryFront | PostcardService/app/services/postcard_generation_service.py:571-615 | the try-block succeeds exactly when the upload returns a url and either the template path's `apply_template` succeeds or the direct path's download does; it then holds the upload's url, plus the embedded engine's front or the photo stretched to the direct size |
| Generation.FrontUrl | PostcardService/app/services/postcard_generation_service.py:571-630 | the front is the uploaded url whenever the try-block succeeds; after a failure it is the app's own url when that starts with "http", and the back image inlined otherwise |
| Generation.TemplateFrontUploaded | PostcardService/app/services/postcard_generation_service.py:572-615 | a known template with enough photos and a working upload gives the composed front, and the card's front is the upload's url |
| Generation.DirectFrontUploaded | PostcardService/app/services/postcard_generation_service.py:591-615 | on the direct path, a photo that downloads and uploads is stretched to the direct size, and the card's front is the upload's url |
| Generation.FrontFallback | PostcardService/app/services/postcard_generation_service.py:617-630 | when the try-block fails, the front is the app's own url exactly when it starts with "http", and otherwise the back image inlined |
| Generation.TooFewPhotosFallsBack | PostcardService/app/services/postcard_generation_service.py:589-630 | a template given too few photos never fails the request; the front falls back |
| Generation.SingleIsDirect | PostcardService/app/services/postcard_generation_service.py:572 | "single" never takes the template path, even with several photos |
| Generation.FinalEmail | PostcardService/app/services/postcard_generation_service.py:643-648 | a non-empty request email wins; otherwise the stored one is kept, or "" for a new transaction |
| Generation.Upsert | PostcardService/app/services/postcard_generation_service.py:650-659 | the store gains the transaction's key and no other; other records are unchanged; the record is ready for payment with the given urls and the final email |
| Generation.EmailSticks | PostcardService/app/services/postcard_generation_service.py:643-659 | an email, once stored, survives a later request for the same transaction that carries none |
| Generation.UpsertIdempotent | PostcardService/app/services/postcard_generation_service.py:641-659 | replaying the same request with the same results leaves the store as after the first |
| Generation.Generate | PostcardService/app/services/postcard_generation_service.py:632-671 | the response is ready for payment under the request's id; its front url is the modelled front url and its back url the upload or the inlined back; the store is updated with exactly those urls; the back is the modelled back layout |

## Left out

- Pixel work is reduced to positions and sizes: drawing, resampling, JPEG and base64 encoding, the rounded rectangle and its border, and the white panel's colour.
- Fonts, emoji fallback chains, `textlength` and `textbbox` are not modelled. Text widths come from the `measure` parameter.
- Wrap: the fallback width estimate taken when measuring raises (fonts.py:91) is not modelled. The measure is total.
- Engines: image download and decoding (HTTP, `data:` urls, RGB conversion) are reduced to the `fetch` parameter. Its `None` stands for any failure, which becomes the placeholder.
- Uploads are reduced to the `World` parameter's outcomes. This covers Cloudinary uploads, the photo fetches and the direct path's `urlopen`. Whether the template engine imported is the separate `engineAvailable` parameter of `PlanFront`, `TryFront`, `FrontUrl` and `Generate`.
- Recording the coupon distribution in the database after the panel is drawn (postcard_generation_service.py:545-560) is a best-effort write with no effect on the image, so it is not modelled.
- The clock is a parameter: today's date for the coupon, and the `created_at` text for the store.
- Calendar.MonthAbbr: `calendar.month_abbr` is modelled in the English locale only.
- Calendar.CouponCode: the `OverflowError` past year 9999 is modelled as `None`. The caller catches it and skips the panel.
- Layouts.SevenTenths: models `int(x * 0.7)` on IEEE doubles by the integer rule in its comment. That rule is not derived from IEEE arithmetic inside the model.
- Layouts.TwoFifths: models `int(h * 0.4)` as the floor of 2h/5.
- BackFace.LogoBox: `int(w * aspect)` is the floor of the exact quotient, not a float product. It can differ by one pixel when the double rounds down.
- Crop.ResizeAndCrop: compares aspect ratios by cross-multiplication, not by float division. A tie counts as "not wider", as in the source's strict `>`.
- Crop.ResizeAndCrop: `int(h * ratio)` and `int(w / ratio)` are the floors of the exact quotients. A double that rounds just below an integer would make the source's box one pixel smaller.
- Layouts.Layout: requires a canvas of at least 100x100 px. Both engine canvases meet this; other sizes are not modelled.
- Generation.Generate: the response's constant `"success": true` field is not modelled.
- Generation.Generate: the outer handler's re-raise is not modelled, because no modelled step raises past the inner handlers.
- Generation.Upsert: other fields that other handlers may have written to a stored record are not modelled. The record is replaced whole, as at line 650.
- The payment, promotion-validation, order-submission and webhook handlers are not part of this model.

=== FILE: backface.dfy ===
/** The layout arithmetic of the postcard back in
    `generate_complete_postcard_service`: the return address and its rule,
    the wrapped message, the recipient block, the logo and the promotional
    panel. Drawing is reduced to where each piece of text goes; text widths
    come from a measure `(text, font size) -> width` passed in, and the date
    the coupon code is computed from is a parameter. */
module BackFace {
  import opened Results
  import opened Text
  import opened Geometry
  import opened Requests
  import Wrap
  import Calendar

  /** A piece of text drawn with its top-left corner at `(x, y)`, in a font of the given size. */
  datatype TextAt = TextAt(x: int, y: int, text: string, size: nat)

  /** A horizontal rule from `(x0, y)` to `(x1, y)`. */
  datatype Rule = Rule(x0: int, x1: int, y: int)

  /** The promotional panel: its box and its four centred lines. */
  datatype Promo = Promo(box: Rect, texts: seq<TextAt>)

  /** Everything placed on the back. */
  datatype Back = Back(
    canvas: Size,
    returnRows: seq<TextAt>,
    separator: Option<Rule>,
    messageRows: seq<TextAt>,
    addressRows: seq<TextAt>,
    logo: Option<Rect>,
    promo: Option<Promo>)

  const Placeholder := "{{RETURN_ADDRESS}}"
  const ReturnFont := 32
  const BodyFont := 40
  const AddressFont := 36
  /** The left margin of the return address and of the message. */
  const Margin := 108
  const MaxMessageRows := 20

  /** The back canvas: only the exact size "regular" is small; every other
      size, "xl" or not, gets the large one. */
  function BackCanvas(postcardSize: string): (c: Size)
    ensures postcardSize == "regular" ==> c == Size(1800, 1200)
    ensures postcardSize != "regular" ==> c == Size(2754, 1872)
  {
    if postcardSize == "regular" then Size(1800, 1200) else Size(2754, 1872)
  }

  /** The message wrap width and the end of the rule: wide only for "xl". */
  function TextWidth(postcardSize: string): (w: int)
    ensures w == 1400 || w == 900
    ensures w == 1400 <==> postcardSize == "xl"
  {
    if postcardSize == "xl" then 1400 else 900
  }

  // ---------------------------------------------------------------------------
  // Filtering in order
  // ---------------------------------------------------------------------------

  /** The entries of `xs` that satisfy `p`, in their original order (Python's
      `filter`, or a loop with an `if`). */
  function Keep<T(!new)>(xs: seq<T>, p: T -> bool): (r: seq<T>)
    ensures |r| <= |xs|
    ensures forall i :: 0 <= i < |r| ==> p(r[i])
  {
    if xs == [] then []
    else (if p(xs[0]) then [xs[0]] else []) + Keep(xs[1..], p)
  }

  /** What is kept is exactly what passes. */
  lemma {:induction false} KeepMembers<T(!new)>(xs: seq<T>, p: T -> bool)
    ensures forall x :: x in Keep(xs, p) <==> x in xs && p(x)
  {
    if xs != [] {
      KeepMembers(xs[1..], p);
      assert forall x :: x in xs <==> x == xs[0] || x in xs[1..];
    }
  }

  /** Filtering distributes over concatenation, so it keeps the order. */
  lemma {:induction false} KeepAppend<T(!new)>(a: seq<T>, b: seq<T>, p: T -> bool)
    ensures Keep(a + b, p) == Keep(a, p) + Keep(b, p)
  {
    if a == [] {
      assert a + b == b;
    } else {
      var head := if p(a[0]) then [a[0]] else [];
      assert (a + b)[0] == a[0] && (a + b)[1..] == a[1..] + b;
      assert Keep(a + b, p) == head + Keep(a[1..] + b, p);
      assert Keep(a, p) == head + Keep(a[1..], p);
      KeepAppend(a[1..], b, p);
    }
  }

  /** Nothing is dropped when every entry passes. */
  lemma {:induction false} KeepAll<T(!new)>(xs: seq<T>, p: T -> bool)
    requires forall i :: 0 <= i < |xs| ==> p(xs[i])
    ensures Keep(xs, p) == xs
  {
    if xs != [] {
      KeepAll(xs[1..], p);
    }
  }

  /** Everything is dropped when nothing passes. */
  lemma {:induction false} KeepNone<T(!new)>(xs: seq<T>, p: T -> bool)
    requires forall i :: 0 <= i < |xs| ==> !p(xs[i])
    ensures Keep(xs, p) == []
  {
    if xs != [] {
      KeepNone(xs[1..], p);
    }
  }

  predicate NonEmpty(s: string) {
    s != ""
  }

  /** Python's `xs[:n]`. */
  function Take<T>(xs: seq<T>, n: nat): (r: seq<T>)
    ensures |r| <= n && |r| <= |xs|
    ensures |r| == n || r == xs
    ensures r == xs[..|r|]
  {
    if |xs| <= n then xs else xs[..n]
  }

  /** Places `texts` one under another, `step` apart, from `(x, y)`. */
  function Place(texts: seq<string>, x: int, y: int, step: int, size: nat): (r: seq<TextAt>)
    ensures |r| == |texts|
    ensures forall i :: 0 <= i < |r| ==> r[i] == TextAt(x, y + step * i, texts[i], size)
    decreases |texts|
  {
    if texts == [] then []
    else
      var rest := Place(texts[1..], x, y + step, step, size);
      assert forall i :: 1 <= i < |texts| ==> y + step + step * (i - 1) == y + step * i;
      [TextAt(x, y, texts[0], size)] + rest
  }

  // ---------------------------------------------------------------------------
  // Return address
  // ---------------------------------------------------------------------------

  /** The return address is used when it is non-empty, not the template's
      placeholder, and non-blank (`text.strip()` is empty exactly when the
      text is all whitespace: `StripEmptyIffBlank`). */
  predicate UsesReturnAddress(text: string) {
    text != "" && text != Placeholder && !AllSpace(text)
  }

  /** Neither end of a non-empty `s` is whitespace. */
  predicate Tidy(s: string) {
    s != [] ==> !IsSpace(s[0]) && !IsSpace(s[|s| - 1])
  }

  /** `[s.strip() for s in xs]`. */
  function StripAll(xs: seq<string>): (r: seq<string>)
    ensures |r| == |xs|
  {
    seq(|xs|, i requires 0 <= i < |xs| => Strip(xs[i]))
  }

  /** The return-address lines drawn: of the first three `'\n'` segments,
      the non-blank ones, stripped. */
  function ReturnLines(text: string): (lines: seq<string>)
    ensures |lines| <= 3
    ensures !UsesReturnAddress(text) ==> lines == []
    ensures forall i :: 0 <= i < |lines| ==> lines[i] != "" && Tidy(lines[i])
  {
    if UsesReturnAddress(text) then
      KeptTidy(Take(SplitOn(text, '\n'), 3));
      Keep(StripAll(Take(SplitOn(text, '\n'), 3)), NonEmpty)
    else []
  }

  /** Stripped lines have no whitespace at either end, and filtering keeps that. */
  lemma KeptTidy(xs: seq<string>)
    ensures forall i :: 0 <= i < |Keep(StripAll(xs), NonEmpty)| ==> Tidy(Keep(StripAll(xs), NonEmpty)[i])
  {
    var ys := StripAll(xs);
    var r := Keep(ys, NonEmpty);
    KeepMembers(ys, NonEmpty);
    forall i | 0 <= i < |r| ensures Tidy(r[i]) {
      assert r[i] in ys;
      var j :| 0 <= j < |ys| && ys[j] == r[i];
      assert ys[j] == Strip(xs[j]);
    }
  }

  lemma {:induction false} JoinStartsWithFirst(parts: seq<string>, sep: char)
    requires |parts| >= 1 && |parts[0]| > 0
    ensures |Join(parts, sep)| > 0 && Join(parts, sep)[0] == parts[0][0]
    decreases |parts|
  {
    if |parts| > 1 {
      var front := parts[..|parts| - 1];
      JoinStartsWithFirst(front, sep);
    }
  }

  lemma StripTidy(s: string)
    requires Tidy(s)
    ensures Strip(s) == s
  {
  }

  lemma StripAllTidy(xs: seq<string>)
    requires forall i :: 0 <= i < |xs| ==> Tidy(xs[i])
    ensures StripAll(xs) == xs
  {
    forall i | 0 <= i < |xs| ensures StripAll(xs)[i] == xs[i] {
      StripTidy(xs[i]);
    }
  }

  /** Up to three tidy lines joined by line breaks come back unchanged (the
      joined text must not be the placeholder itself). */
  lemma ReturnLinesOfTidyLines(lines: seq<string>)
    requires 1 <= |lines| <= 3
    requires forall i :: 0 <= i < |lines| ==> lines[i] != "" && Tidy(lines[i]) && '\n' !in lines[i]
    requires Join(lines, '\n') != Placeholder
    ensures ReturnLines(Join(lines, '\n')) == lines
  {
    var text := Join(lines, '\n');
    JoinStartsWithFirst(lines, '\n');
    assert !IsSpace(text[0]);
    ReturnLinesUnfold(text);
    SplitOnJoin(lines, '\n');
    TakeAll(lines, 3);
    StripAllTidy(lines);
    KeepAll(lines, NonEmpty);
    assert SplitOn(text, '\n') == lines;
    assert Take(SplitOn(text, '\n'), 3) == lines;
    assert StripAll(Take(SplitOn(text, '\n'), 3)) == lines;
  }

  lemma TakeAll<T>(xs: seq<T>, n: nat)
    requires |xs| <= n
    ensures Take(xs, n) == xs
  {
  }

  lemma ReturnLinesUnfold(text: string)
    requires UsesReturnAddress(text)
    ensures ReturnLines(text) == Keep(StripAll(Take(SplitOn(text, '\n'), 3)), NonEmpty)
  {
  }

  /** When the first three segments are blank no return line is drawn,
      whatever follows them. */
  lemma BlankHeadDrawsNothing(segs: seq<string>)
    requires |segs| >= 3
    requires forall i :: 0 <= i < |segs| ==> '\n' !in segs[i]
    requires forall i :: 0 <= i < 3 ==> AllSpace(segs[i])
    ensures ReturnLines(Join(segs, '\n')) == []
  {
    var text := Join(segs, '\n');
    if UsesReturnAddress(text) {
      BlankHeadKeepsNothing(segs);
      ReturnLinesUnfold(text);
    }
  }

  lemma BlankHeadKeepsNothing(segs: seq<string>)
    requires |segs| >= 3
    requires forall i :: 0 <= i < |segs| ==> '\n' !in segs[i]
    requires forall i :: 0 <= i < 3 ==> AllSpace(segs[i])
    ensures Keep(StripAll(Take(SplitOn(Join(segs, '\n'), '\n'), 3)), NonEmpty) == []
  {
    HeadOfJoin(segs);
    KeepBlankNone(segs[..3]);
  }

  /** The first three `'\n'` segments of joined separator-free pieces are
      the first three pieces. */
  lemma HeadOfJoin(segs: seq<string>)
    requires |segs| >= 3
    requires forall i :: 0 <= i < |segs| ==> '\n' !in segs[i]
    ensures Take(SplitOn(Join(segs, '\n'), '\n'), 3) == segs[..3]
  {
    SplitOnJoin(segs, '\n');
  }

  lemma KeepBlankNone(xs: seq<string>)
    requires forall i :: 0 <= i < |xs| ==> AllSpace(xs[i])
    ensures Keep(StripAll(xs), NonEmpty) == []
  {
    BlankStrips(xs);
    KeepNone(StripAll(xs), NonEmpty);
  }

  /** Stripping blank strings leaves only empty ones. */
  lemma BlankStrips(xs: seq<string>)
    requires forall i :: 0 <= i < |xs| ==> AllSpace(xs[i])
    ensures forall i :: 0 <= i < |StripAll(xs)| ==> !NonEmpty(StripAll(xs)[i])
  {
    forall i | 0 <= i < |xs| ensures !NonEmpty(StripAll(xs)[i]) {
      StripEmptyIffBlank(xs[i]);
    }
  }

  /** So a return address whose text starts after three line breaks is
      used, yet draws no line. */
  lemma ReturnAddressBeyondThirdLine()
    ensures UsesReturnAddress("\n\n\nSender")
    ensures ReturnLines("\n\n\nSender") == []
  {
    SenderIsUsed();
    var segs := ["", "", "", "Sender"];
    JoinSender();
    assert forall i :: 0 <= i < |segs| ==> '\n' !in segs[i];
    BlankHeadDrawsNothing(segs);
  }

  lemma SenderIsUsed()
    ensures UsesReturnAddress("\n\n\nSender")
  {
    var text := "\n\n\nSender";
    assert !IsSpace(text[3]);
  }

  lemma JoinSender()
    ensures Join(["", "", "", "Sender"], '\n') == "\n\n\nSender"
  {
    var segs := ["", "", "", "Sender"];
    assert segs[..3] == ["", "", ""] && segs[..3][..2] == ["", ""] && segs[..3][..2][..1] == [""];
    assert Join(["", ""], '\n') == "\n";
    assert Join(["", "", ""], '\n') == "\n\n";
  }

  /** With `k` return lines the message starts 50 px below the last one,
      else at 150. */
  function MessageStart(k: nat): (y: int)
    ensures k == 0 ==> y == 150
    ensures k > 0 ==> y == Margin + 40 * (k - 1) + 90
  {
    if k > 0 then Margin + 40 * k + 20 + 30 else 150
  }

  /** The rule under the return address, if any line was drawn. */
  function Separator(k: nat, postcardSize: string): (rule: Option<Rule>)
    ensures rule.Some? <==> k > 0
    ensures rule.Some? ==> rule.value.x0 == Margin && rule.value.x1 == TextWidth(postcardSize)
    ensures rule.Some? ==> rule.value.y == MessageStart(k) - 30
  {
    if k > 0 then Some(Rule(Margin, TextWidth(postcardSize), Margin + 40 * k + 20)) else None
  }

  // ---------------------------------------------------------------------------
  // Message
  // ---------------------------------------------------------------------------

  predicate Visible(t: TextAt) {
    Strip(t.text) != ""
  }

  /** The message rows drawn: the first twenty wrapped lines each take a
      50 px slot from `start`, and only the non-blank ones draw text. */
  function MessageRows(lines: seq<string>, start: int): (rows: seq<TextAt>)
    ensures |rows| <= MaxMessageRows
    ensures forall j :: 0 <= j < |rows| ==>
      rows[j].x == Margin && rows[j].size == BodyFont && Visible(rows[j])
      && start <= rows[j].y < start + 50 * MaxMessageRows
  {
    var slots := Place(Take(lines, MaxMessageRows), Margin, start, 50, BodyFont);
    var rows := Keep(slots, Visible);
    assert forall j :: 0 <= j < |rows| ==> rows[j] in slots by {
      KeepMembers(slots, Visible);
    }
    rows
  }

  /** The rows drawn are exactly the non-blank lines among the first twenty,
      each in its own 50 px slot. */
  lemma MessageRowsAre(lines: seq<string>, start: int)
    ensures forall i :: 0 <= i < |lines| && i < MaxMessageRows && Strip(lines[i]) != "" ==>
      TextAt(Margin, start + 50 * i, lines[i], BodyFont) in MessageRows(lines, start)
    ensures forall t :: t in MessageRows(lines, start) ==>
      exists i :: 0 <= i < |lines| && i < MaxMessageRows && t == TextAt(Margin, start + 50 * i, lines[i], BodyFont)
  {
    VisibleLinesDrawn(lines, start);
    DrawnRowsAreLines(lines, start);
  }

  /** Every non-blank line among the first twenty is drawn in its slot. */
  lemma VisibleLinesDrawn(lines: seq<string>, start: int)
    ensures forall i :: 0 <= i < |lines| && i < MaxMessageRows && Strip(lines[i]) != "" ==>
      TextAt(Margin, start + 50 * i, lines[i], BodyFont) in MessageRows(lines, start)
  {
    var slots := Place(Take(lines, MaxMessageRows), Margin, start, 50, BodyFont);
    KeepMembers(slots, Visible);
    forall i | 0 <= i < |lines| && i < MaxMessageRows && Strip(lines[i]) != ""
      ensures TextAt(Margin, start + 50 * i, lines[i], BodyFont) in Keep(slots, Visible)
    {
      assert slots[i] == TextAt(Margin, start + 50 * i, lines[i], BodyFont);
    }
  }

  /** Every drawn row is one of the first twenty lines, in its slot. */
  lemma DrawnRowsAreLines(lines: seq<string>, start: int)
    ensures forall t :: t in MessageRows(lines, start) ==>
      exists i :: 0 <= i < |lines| && i < MaxMessageRows && t == TextAt(Margin, start + 50 * i, lines[i], BodyFont)
  {
    var taken := Take(lines, MaxMessageRows);
    var slots := Place(taken, Margin, start, 50, BodyFont);
    KeepMembers(slots, Visible);
    forall t | t in Keep(slots, Visible)
      ensures exists i :: 0 <= i < |lines| && i < MaxMessageRows && t == TextAt(Margin, start + 50 * i, lines[i], BodyFont)
    {
      var i :| 0 <= i < |slots| && slots[i] == t;
      assert taken[i] == lines[i];
    }
  }

  predicate Descending(rows: seq<TextAt>) {
    forall j, k :: 0 <= j < k < |rows| ==> rows[j].y < rows[k].y
  }

  lemma {:induction false} KeepDescending(ts: seq<TextAt>, p: TextAt -> bool)
    requires Descending(ts)
    ensures Descending(Keep(ts, p))
  {
    if ts != [] {
      KeepDescending(ts[1..], p);
      var rest := Keep(ts[1..], p);
      KeepMembers(ts[1..], p);
      forall k | 0 <= k < |rest| ensures ts[0].y < rest[k].y {
        assert rest[k] in ts[1..];
      }
    }
  }

  /** The drawn message rows run strictly down the card, in message order. */
  lemma MessageRowsDescend(lines: seq<string>, start: int)
    ensures Descending(MessageRows(lines, start))
  {
    var slots := Place(Take(lines, MaxMessageRows), Margin, start, 50, BodyFont);
    KeepDescending(slots, Visible);
  }

  // ---------------------------------------------------------------------------
  // Recipient block
  // ---------------------------------------------------------------------------

  predicate CommaOrSpace(c: char) {
    c == ',' || c == ' '
  }

  /** `f"{city}, {state} {zipcode}".strip(", ")`: the fields with their
      separators, less any commas and spaces at either end. */
  function CityLine(r: Recipient): (line: string)
    ensures line == "" <==> forall i :: 0 <= i < |CityText(r)| ==> CommaOrSpace(CityText(r)[i])
    ensures line != "" ==> !CommaOrSpace(line[0]) && !CommaOrSpace(line[|line| - 1])
    // with a tidy city in front and a tidy zip code behind, nothing is stripped
    ensures !CommaOrSpace(CityText(r)[0]) && !CommaOrSpace(CityText(r)[|CityText(r)| - 1]) ==> line == CityText(r)
  {
    Trim(CityText(r), CommaOrSpace)
  }

  /** Only the two end runs of commas and spaces go: the city line is the
      text between them, unchanged (and by `TrimUnique` the only such cut). */
  lemma CityLineStrips(r: Recipient)
    ensures var (s, a, line) := (CityText(r), LeadingCount(CityText(r), CommaOrSpace), CityLine(r));
      && a + |line| <= |s| && line == s[a..a + |line|]
      && (forall i :: 0 <= i < a ==> CommaOrSpace(s[i]))
      && (forall i :: a + |line| <= i < |s| ==> CommaOrSpace(s[i]))
  {
    TrimTail(CityText(r), CommaOrSpace);
  }

  /** The formatted city line before stripping (a missing field prints as "None"). */
  function CityText(r: Recipient): string {
    Show(r.city) + ", " + Show(r.state) + " " + Show(r.zipcode)
  }

  /** A line of the block when it has any text, nothing otherwise. */
  function IfPresent(s: string): (r: seq<string>)
    ensures |r| <= 1 && (r == [] <==> s == "")
    ensures r != [] ==> r[0] == s
  {
    if s == "" then [] else [s]
  }

  /** The recipient lines, in order, with empty and missing ones dropped. */
  function AddressLines(r: Recipient): (lines: seq<string>)
    ensures |lines| <= 4
    ensures forall i :: 0 <= i < |lines| ==> lines[i] != ""
    ensures forall s :: s in lines <==>
      s != "" && (s == r.to || s == r.addressLine1 || r.addressLine2 == Some(s) || s == CityLine(r))
    // the order is the source's: name, first line, second line, city line
    ensures lines == IfPresent(r.to) + IfPresent(r.addressLine1)
                   + IfPresent(if r.addressLine2.Some? then r.addressLine2.value else "")
                   + IfPresent(CityLine(r))
  {
    var line2 := if r.addressLine2.Some? then r.addressLine2.value else "";
    var lines := Keep([r.to, r.addressLine1, line2, CityLine(r)], NonEmpty);
    KeepMembers([r.to, r.addressLine1, line2, CityLine(r)], NonEmpty);
    KeepInOrder(r.to, r.addressLine1, line2, CityLine(r));
    lines
  }

  /** Filtering four lines keeps the present ones in their order. */
  lemma KeepInOrder(a: string, b: string, c: string, d: string)
    ensures Keep([a, b, c, d], NonEmpty) == IfPresent(a) + IfPresent(b) + IfPresent(c) + IfPresent(d)
  {
    assert [a, b, c, d] == [a, b, c] + [d];
    KeepAppend([a, b, c], [d], NonEmpty);
    assert [a, b, c] == [a, b] + [c];
    KeepAppend([a, b], [c], NonEmpty);
    assert [a, b] == [a] + [b];
    KeepAppend([a], [b], NonEmpty);
    assert Keep([a], NonEmpty) == IfPresent(a) by { assert [a][1..] == []; }
    assert Keep([b], NonEmpty) == IfPresent(b) by { assert [b][1..] == []; }
    assert Keep([c], NonEmpty) == IfPresent(c) by { assert [c][1..] == []; }
    assert Keep([d], NonEmpty) == IfPresent(d) by { assert [d][1..] == []; }
  }

  /** A recipient with every field filled in gets four lines, the last one
      "city, state zip". */
  lemma FullRecipient(r: Recipient)
    requires r.to != "" && r.addressLine1 != ""
    requires r.addressLine2.Some? && r.addressLine2.value != ""
    requires r.city.Some? && r.state.Some? && r.zipcode.Some?
    requires r.city.value != "" && !CommaOrSpace(r.city.value[0])
    requires r.zipcode.value != "" && !CommaOrSpace(r.zipcode.value[|r.zipcode.value| - 1])
    ensures AddressLines(r) == [r.to, r.addressLine1, r.addressLine2.value,
                                r.city.value + ", " + r.state.value + " " + r.zipcode.value]
  {
    var s := r.city.value + ", " + r.state.value + " " + r.zipcode.value;
    assert s[0] == r.city.value[0];
    assert s[|s| - 1] == r.zipcode.value[|r.zipcode.value| - 1];
    assert CityLine(r) == s;
    KeepAll([r.to, r.addressLine1, r.addressLine2.value, s], NonEmpty);
  }

  /** Empty city, state and zip leave only ",  ", which strips to nothing:
      no city line is drawn. */
  lemma BlankCityDropped(r: Recipient)
    requires r.city == Some("") && r.state == Some("") && r.zipcode == Some("")
    ensures CityLine(r) == ""
    ensures |AddressLines(r)| <= 3
  {
    assert CityText(r) == ",  ";
  }


  /** A missing city leaves a leading ", " that the strip removes, and only that. */
  lemma EmptyCityStripped(r: Recipient)
    requires r.city == Some("") && r.state == Some("MA") && r.zipcode == Some("02101")
    ensures CityLine(r) == "MA 02101"
  {
    var s := CityText(r);
    assert s == ", MA 02101";
    assert s[2..10] == "MA 02101";
    assert CommaOrSpace(s[0]) && CommaOrSpace(s[1]);
    TrimUnique(s, CommaOrSpace, 2, "MA 02101");
  }

  /** Missing city, state and zip are rendered as the text "None". */
  lemma MissingCityShown(r: Recipient)
    requires r.city.None? && r.state.None? && r.zipcode.None?
    ensures CityLine(r) == "None, None None"
    ensures "None, None None" in AddressLines(r)
  {
    var s := Show(r.city) + ", " + Show(r.state) + " " + Show(r.zipcode);
    assert s == "None, None None";
    assert s[0] == 'N' && s[|s| - 1] == 'e';
  }

  /** The column of the recipient block. */
  function AddressX(postcardSize: string, canvas: Size): (x: int)
    ensures postcardSize == "xl" ==> x == canvas.width - 800
    ensures postcardSize != "xl" ==> x == canvas.width - 680
  {
    if postcardSize == "xl" then canvas.width - 800 else canvas.width - 680
  }

  // ---------------------------------------------------------------------------
  // Logo
  // ---------------------------------------------------------------------------

  /** The logo is scaled to a fixed width keeping its aspect (the source
      truncates a float product; here the floor of the exact quotient) and
      sits 50 px from the left and bottom edges. */
  function LogoBox(postcardSize: string, canvas: Size, logo: Size): (box: Rect)
    requires Positive(logo)
    ensures box.x == 50 && Bottom(box) == canvas.height - 50
    ensures box.w == (if postcardSize == "xl" then 600 else 400)
    ensures box.h >= 0
    ensures box.h * logo.width <= box.w * logo.height < (box.h + 1) * logo.width
  {
    var lw := if postcardSize == "xl" then 600 else 400;
    var lh := lw * logo.height / logo.width;
    FloorDiv(lw * logo.height, logo.width);
    Rect(50, canvas.height - lh - 50, lw, lh)
  }

  /** A logo at most twice as tall as wide stays on the back and clear of
      the recipient block's column. */
  lemma LogoPlacement(postcardSize: string, logo: Size)
    requires Positive(logo) && logo.height <= 2 * logo.width
    ensures Within(LogoBox(postcardSize, BackCanvas(postcardSize), logo), BackCanvas(postcardSize))
    ensures Right(LogoBox(postcardSize, BackCanvas(postcardSize), logo)) < AddressX(postcardSize, BackCanvas(postcardSize))
  {
    var box := LogoBox(postcardSize, BackCanvas(postcardSize), logo);
    MulMono(logo.height, 2 * logo.width, box.w);
    MulLess(box.h, 2 * box.w + 1, logo.width);
  }

  // ---------------------------------------------------------------------------
  // Promotional panel
  // ---------------------------------------------------------------------------

  function PromoBox(postcardSize: string, canvas: Size): (box: Rect)
    ensures postcardSize == "xl" ==> box == Rect(canvas.width - 750, 100, 700, 300)
    ensures postcardSize != "xl" ==> box == Rect(canvas.width - 540, 80, 500, 220)
  {
    if postcardSize == "xl" then Rect(canvas.width - 750, 100, 700, 300)
    else Rect(canvas.width - 540, 80, 500, 220)
  }

  /** The left edge that centres a text of width `w` in `box` (Python `//`). */
  function CentredX(box: Rect, w: int): (x: int)
    ensures x - box.x <= Right(box) - (x + w) <= x - box.x + 1
  {
    box.x + (box.w - w) / 2
  }

  function PromoLines(code: string): seq<string> {
    ["Get XLPostcards App!", "Download from App/Play Store", "Code: " + code, "First postcard FREE!"]
  }

  /** The promotional panel: no panel at all when the coupon code cannot be
      computed (the date overflows and the whole block is skipped). */
  function PromoPanel(postcardSize: string, canvas: Size, today: Calendar.Date,
                      measure: (string, nat) -> nat): (p: Option<Promo>)
    requires Calendar.Valid(today)
    ensures p.Some? <==> Calendar.CouponCode(today).Some?
    ensures p.Some? ==> p.value.box == PromoBox(postcardSize, canvas)
    ensures p.Some? ==>
      |p.value.texts| == 4 && p.value.texts[2].text == "Code: " + Calendar.CouponCode(today).value
    ensures p.Some? ==>
      && p.value.texts[0].text == "Get XLPostcards App!"
      && p.value.texts[1].text == "Download from App/Play Store"
      && p.value.texts[3].text == "First postcard FREE!"
    // title, body, code and body fonts
    ensures p.Some? ==>
      var ts := p.value.texts;
      (ts[0].size, ts[1].size, ts[2].size, ts[3].size)
        == if postcardSize == "xl" then (36, 28, 32, 28) else (28, 22, 26, 22)
    ensures p.Some? ==> forall i :: 0 <= i < 4 ==>
      var t := p.value.texts[i];
      t.x - p.value.box.x <= Right(p.value.box) - (t.x + measure(t.text, t.size)) <= t.x - p.value.box.x + 1
    ensures p.Some? ==>
      var (box, ts) := (p.value.box, p.value.texts);
      var spacing := if postcardSize == "xl" then 40 else 32;
      ts[0].y == box.y + 25 && ts[1].y == ts[0].y + spacing
      && ts[2].y == ts[1].y + spacing && ts[3].y == ts[2].y + spacing - 10
  {
    var code := Calendar.CouponCode(today);
    if code.None? then None
    else
      var box := PromoBox(postcardSize, canvas);
      var xl := postcardSize == "xl";
      var (titleFont, bodyFont, codeFont) := if xl then (36, 28, 32) else (28, 22, 26);
      var spacing := if xl then 40 else 32;
      var texts := PromoLines(code.value);
      var fonts := [titleFont, bodyFont, codeFont, bodyFont];
      var ys := [box.y + 25, box.y + 25 + spacing, box.y + 25 + 2 * spacing, box.y + 15 + 3 * spacing];
      Some(Promo(box, seq(4, i requires 0 <= i < 4 => TextAt(CentredX(box, measure(texts[i], fonts[i])), ys[i], texts[i], fonts[i]))))
  }

  // ---------------------------------------------------------------------------
  // The whole back
  // ---------------------------------------------------------------------------

  function BackLayout(req: PostcardRequest, today: Calendar.Date, measure: (string, nat) -> nat,
                      logo: Option<Size>): (b: Back)
    requires Calendar.Valid(today)
    requires logo.Some? ==> Positive(logo.value)
    ensures b.canvas == BackCanvas(req.postcardSize)
    ensures |b.returnRows| == |ReturnLines(req.returnAddressText)| <= 3
    ensures b.separator.Some? <==> b.returnRows != []
    ensures |b.messageRows| <= MaxMessageRows
    // a logo scaled to zero height makes the resize raise, and the caught error skips it
    ensures b.logo.Some? <==> logo.Some? && LogoBox(req.postcardSize, b.canvas, logo.value).h > 0
    ensures b.logo.Some? ==> b.logo.value == LogoBox(req.postcardSize, b.canvas, logo.value)
    ensures b.promo.Some? <==> Calendar.CouponCode(today).Some?
  {
    var canvas := BackCanvas(req.postcardSize);
    var ret := ReturnLines(req.returnAddressText);
    var k := |ret|;
    var lines := MessageLines(req.message, req.postcardSize, measure);
    Back(
      canvas,
      Place(ret, Margin, Margin, 40, ReturnFont),
      Separator(k, req.postcardSize),
      MessageRows(lines, MessageStart(k)),
      Place(AddressLines(req.recipientInfo), AddressX(req.postcardSize, canvas), canvas.height - 360, 46, AddressFont),
      if logo.Some? && LogoBox(req.postcardSize, canvas, logo.value).h > 0
      then Some(LogoBox(req.postcardSize, canvas, logo.value)) else None,
      PromoPanel(req.postcardSize, canvas, today, measure))
  }

  /** `process_message_with_line_breaks` as the back calls it: wrapped at the
      text width, measured in the body font. */
  function MessageLines(message: string, postcardSize: string, measure: (string, nat) -> nat): (lines: seq<string>)
    ensures |lines| >= 1
  {
    var width := s => measure(s, BodyFont);
    Wrap.WrapMessageCounts(message, TextWidth(postcardSize), width);
    Wrap.WrapMessage(message, TextWidth(postcardSize), width)
  }

  /** The back is built from the models of its parts: the return lines placed
      40 px apart from the margin, the rule under them, and the wrapped
      message drawn row by row from where the rule leaves it. */
  lemma BackComposition(req: PostcardRequest, today: Calendar.Date, measure: (string, nat) -> nat,
                        logo: Option<Size>)
    requires Calendar.Valid(today)
    requires logo.Some? ==> Positive(logo.value)
    ensures var (b, ret) := (BackLayout(req, today, measure, logo), ReturnLines(req.returnAddressText));
      && b.returnRows == Place(ret, Margin, Margin, 40, ReturnFont)
      && b.separator == Separator(|ret|, req.postcardSize)
      && b.messageRows == MessageRows(MessageLines(req.message, req.postcardSize, measure), MessageStart(|ret|))
    ensures var b := BackLayout(req, today, measure, logo);
      b.addressRows == Place(AddressLines(req.recipientInfo), AddressX(req.postcardSize, b.canvas),
                             b.canvas.height - 360, 46, AddressFont)
    ensures var b := BackLayout(req, today, measure, logo);
      b.promo == PromoPanel(req.postcardSize, b.canvas, today, measure)
  {
  }

  /** Top to bottom: the return lines, then the rule, then the message. */
  lemma BackReadsDownwards(req: PostcardRequest, today: Calendar.Date, measure: (string, nat) -> nat,
                           logo: Option<Size>)
    requires Calendar.Valid(today)
    requires logo.Some? ==> Positive(logo.value)
    ensures var b := BackLayout(req, today, measure, logo);
      && (b.separator.Some? ==>
            && (forall j :: 0 <= j < |b.returnRows| ==> b.returnRows[j].y < b.separator.value.y)
            && (forall j :: 0 <= j < |b.messageRows| ==> b.separator.value.y < b.messageRows[j].y))
      && (b.separator.None? ==> forall j :: 0 <= j < |b.messageRows| ==> b.messageRows[j].y >= 150)
  {
    BackComposition(req, today, measure, logo);
    HeaderAboveMessage(ReturnLines(req.returnAddressText), MessageLines(req.message, req.postcardSize, measure),
                       req.postcardSize);
  }

  /** The return lines sit above the rule under them. */
  lemma ReturnRowsAboveRule(ret: seq<string>)
    ensures forall j :: 0 <= j < |ret| ==>
      Place(ret, Margin, Margin, 40, ReturnFont)[j].y < Margin + 40 * |ret| + 20
  {
    var rows := Place(ret, Margin, Margin, 40, ReturnFont);
    forall j | 0 <= j < |ret| ensures rows[j].y < Margin + 40 * |ret| + 20 {
      assert rows[j].y == Margin + 40 * j;
      MulMono(j + 1, |ret|, 40);
    }
  }

  lemma HeaderAboveMessage(ret: seq<string>, lines: seq<string>, postcardSize: string)
    ensures var sep := Separator(|ret|, postcardSize);
      && (sep.Some? ==>
            && (forall j :: 0 <= j < |ret| ==> Place(ret, Margin, Margin, 40, ReturnFont)[j].y < sep.value.y)
            && (forall j :: 0 <= j < |MessageRows(lines, MessageStart(|ret|))| ==>
                  sep.value.y < MessageRows(lines, MessageStart(|ret|))[j].y))
      && (sep.None? ==> forall j :: 0 <= j < |MessageRows(lines, MessageStart(|ret|))| ==>
                          MessageRows(lines, MessageStart(|ret|))[j].y >= 150)
  {
    ReturnRowsAboveRule(ret);
  }

  /** The promotional panel lies on the back above the recipient block, and
      the message column (the wrap width from the left margin) ends before
      the recipient block's column starts, on every back canvas. */
  lemma PanelsApart(postcardSize: string)
    ensures var c := BackCanvas(postcardSize);
      && Within(PromoBox(postcardSize, c), c)
      && Bottom(PromoBox(postcardSize, c)) < c.height - 360
      && Margin + TextWidth(postcardSize) < AddressX(postcardSize, c)
  {
  }

  /** The recipient lines are drawn one under another, 46 px apart, from
      360 px above the bottom edge. */
  lemma AddressBlockRows(req: PostcardRequest, today: Calendar.Date, measure: (string, nat) -> nat,
                         logo: Option<Size>)
    requires Calendar.Valid(today)
    requires logo.Some? ==> Positive(logo.value)
    ensures var (b, lines) := (BackLayout(req, today, measure, logo), AddressLines(req.recipientInfo));
      && |b.addressRows| == |lines|
      && forall i :: 0 <= i < |lines| ==>
           b.addressRows[i] == TextAt(AddressX(req.postcardSize, b.canvas), b.canvas.height - 360 + 46 * i, lines[i], AddressFont)
  {
  }
}

=== FILE: calendar.dfy ===
/** The monthly coupon code (`get_next_month_coupon_code`): the abbreviation
    of the month 32 days after today, on the proleptic Gregorian calendar of
    Python's `datetime`. Today's date is a parameter. */
module Calendar {
  import opened Results

  datatype Date = Date(year: int, month: int, day: int)

  /** The last year `datetime` can represent. */
  const MaxYear := 9999

  predicate IsLeap(y: int) {
    y % 4 == 0 && (y % 100 != 0 || y % 400 == 0)
  }

  function DaysIn(y: int, m: int): (n: int)
    ensures 28 <= n <= 31
  {
    if m == 2 then (if IsLeap(y) then 29 else 28)
    else if m == 4 || m == 6 || m == 9 || m == 11 then 30
    else 31
  }

  predicate Valid(d: Date) {
    1 <= d.year <= MaxYear && 1 <= d.month <= 12 && 1 <= d.day <= DaysIn(d.year, d.month)
  }

  /** The first day of the following month. */
  function FirstOfNext(d: Date): Date {
    if d.month == 12 then Date(d.year + 1, 1, 1) else Date(d.year, d.month + 1, 1)
  }

  /** `d + timedelta(days=n)`, one month at a time; the year may run past
      `MaxYear`, where `datetime` would raise instead. */
  function AddDays(d: Date, n: nat): (r: Date)
    requires 1 <= d.month <= 12 && 1 <= d.day <= DaysIn(d.year, d.month)
    ensures 1 <= r.month <= 12 && 1 <= r.day <= DaysIn(r.year, r.month)
    decreases n
  {
    var left := DaysIn(d.year, d.month) - d.day;
    if n <= left then Date(d.year, d.month, d.day + n)
    else AddDays(FirstOfNext(d), n - left - 1)
  }

  // ---------------------------------------------------------------------------
  // An independent day count
  // ---------------------------------------------------------------------------

  /** Days in the years before `y` (from 1 January of year 1). */
  function DaysBeforeYear(y: int): int {
    var p := y - 1;
    365 * p + p / 4 - p / 100 + p / 400
  }

  /** Days in the months of year `y` before month `m`. */
  function DaysBeforeMonth(y: int, m: int): int
    decreases m
  {
    if m <= 1 then 0 else DaysBeforeMonth(y, m - 1) + DaysIn(y, m - 1)
  }

  function YearLength(y: int): int {
    if IsLeap(y) then 366 else 365
  }

  /** The day number of a date, 1 for 1 January of year 1 (`date.toordinal()`). */
  function Ordinal(d: Date): int {
    DaysBeforeYear(d.year) + DaysBeforeMonth(d.year, d.month) + d.day
  }

  lemma {:induction false} YearIsTwelveMonths(y: int)
    ensures DaysBeforeMonth(y, 13) == YearLength(y)
  {
    assert DaysBeforeMonth(y, 2) == 31;
    assert DaysBeforeMonth(y, 3) == 31 + DaysIn(y, 2);
    assert DaysBeforeMonth(y, 7) == DaysBeforeMonth(y, 3) + 31 + 30 + 31 + 30;
    assert DaysBeforeMonth(y, 13) == DaysBeforeMonth(y, 7) + 31 + 31 + 30 + 31 + 30 + 31;
  }

  lemma NextYear(y: int)
    requires y >= 1
    ensures DaysBeforeYear(y + 1) == DaysBeforeYear(y) + YearLength(y)
  {
    Quarter(y - 1);
    Century(y - 1);
    FourCenturies(y - 1);
    Divisibility(y);
    var p := y - 1;
    assert DaysBeforeYear(y + 1) == 365 * y + y / 4 - y / 100 + y / 400;
    assert DaysBeforeYear(y) == 365 * p + p / 4 - p / 100 + p / 400;
    if y % 4 != 0 {
      assert YearLength(y) == 365;
    } else if y % 100 != 0 {
      assert YearLength(y) == 366;
    } else if y % 400 != 0 {
      assert YearLength(y) == 365;
    } else {
      assert YearLength(y) == 366;
    }
  }

  /** Multiples of 400 are multiples of 100, which are multiples of 4. */
  lemma Divisibility(y: int)
    ensures y % 400 == 0 ==> y % 100 == 0
    ensures y % 100 == 0 ==> y % 4 == 0
  {
    if y % 400 == 0 {
      HundredOfFourHundred(y);
    }
    if y % 100 == 0 {
      FourOfHundred(y);
    }
  }

  lemma HundredOfFourHundred(y: int)
    requires y % 400 == 0
    ensures y % 100 == 0
  {
    assert y == 100 * (4 * (y / 400));
  }

  lemma FourOfHundred(y: int)
    requires y % 100 == 0
    ensures y % 4 == 0
  {
    assert y == 4 * (25 * (y / 100));
  }

  /** One more year adds a leap day to the count exactly on multiples of 4. */
  lemma Quarter(p: int)
    ensures (p + 1) / 4 == (if (p + 1) % 4 == 0 then p / 4 + 1 else p / 4)
  {
  }

  lemma Century(p: int)
    ensures (p + 1) / 100 == (if (p + 1) % 100 == 0 then p / 100 + 1 else p / 100)
  {
  }

  lemma FourCenturies(p: int)
    ensures (p + 1) / 400 == (if (p + 1) % 400 == 0 then p / 400 + 1 else p / 400)
  {
  }

  /** Moving to the first of the next month advances the day count by the
      days left in the month plus one. */
  lemma FirstOfNextOrdinal(d: Date)
    requires d.year >= 1 && 1 <= d.month <= 12
    ensures Ordinal(FirstOfNext(d)) == Ordinal(d) + DaysIn(d.year, d.month) - d.day + 1
  {
    if d.month == 12 {
      YearIsTwelveMonths(d.year);
      NextYear(d.year);
    }
  }

  /** `AddDays` agrees with the day count: it moves exactly `n` days on. */
  lemma {:induction false} AddDaysOrdinal(d: Date, n: nat)
    requires d.year >= 1 && 1 <= d.month <= 12 && 1 <= d.day <= DaysIn(d.year, d.month)
    ensures Ordinal(AddDays(d, n)) == Ordinal(d) + n
    ensures AddDays(d, n).year >= d.year
    decreases n
  {
    var left := DaysIn(d.year, d.month) - d.day;
    if n > left {
      FirstOfNextOrdinal(d);
      AddDaysOrdinal(FirstOfNext(d), n - left - 1);
    }
  }

  // ---------------------------------------------------------------------------
  // The coupon code
  // ---------------------------------------------------------------------------

  /** `calendar.month_abbr[m]` in the default (English) locale. */
  function MonthAbbr(m: int): string
    requires 1 <= m <= 12
  {
    ["Jan", "Feb", "Mar", "Apr", "May", "Jun", "Jul", "Aug", "Sep", "Oct", "Nov", "Dec"][m - 1]
  }

  /** The date the code is for: 32 days after today. */
  function CouponDate(today: Date): Date
    requires Valid(today)
  {
    AddDays(today, 32)
  }

  /** `get_next_month_coupon_code()` on `today`: `None` where `datetime`
      overflows past year 9999 and raises. */
  function CouponCode(today: Date): (code: Option<string>)
    requires Valid(today)
    ensures code.Some? <==> CouponDate(today).year <= MaxYear
    ensures code.Some? ==> |code.value| == 12 && code.value[..9] == "XLWelcome"
    ensures code.Some? ==> code.value[9..] == MonthAbbr(CouponDate(today).month)
  {
    var next := CouponDate(today);
    if next.year > MaxYear then None else Some("XLWelcome" + MonthAbbr(next.month))
  }

  /** Months from `a`'s month to `b`'s month. */
  function MonthsBetween(a: Date, b: Date): int {
    (b.year * 12 + b.month) - (a.year * 12 + a.month)
  }

  /** The code's month is never the current one and at most two ahead; it is
      two ahead exactly when 32 days overrun the rest of this month and all
      of the next (from the 28th to the 31st of January, say). */
  lemma CouponMonthAhead(today: Date)
    requires Valid(today)
    ensures var m := MonthsBetween(today, CouponDate(today));
      && (m == 1 || m == 2)
      && (m == 2 <==> today.day + 32 > DaysIn(today.year, today.month) + DaysIn(FirstOfNext(today).year, FirstOfNext(today).month))
  {
    var n1 := FirstOfNext(today);
    var left := DaysIn(today.year, today.month) - today.day;
    assert CouponDate(today) == AddDays(n1, 32 - left - 1);
    var rest := 32 - left - 1;
    if rest > DaysIn(n1.year, n1.month) - 1 {
      var n2 := FirstOfNext(n1);
      assert AddDays(n1, rest) == AddDays(n2, rest - DaysIn(n1.year, n1.month));
      assert AddDays(n2, rest - DaysIn(n1.year, n1.month)) == Date(n2.year, n2.month, 1 + rest - DaysIn(n1.year, n1.month));
    }
  }

  /** 32 days after 31 January 2026 is 4 March: the code skips February. */
  lemma CouponSkipsFebruary()
    ensures CouponCode(Date(2026, 1, 31)) == Some("XLWelcomeMar")
  {
    assert AddDays(Date(2026, 1, 31), 32) == AddDays(Date(2026, 2, 1), 31);
    assert AddDays(Date(2026, 2, 1), 31) == AddDays(Date(2026, 3, 1), 3);
    assert CouponDate(Date(2026, 1, 31)) == Date(2026, 3, 4);
    assert MonthAbbr(3) == "Mar";
    assert "XLWelcome" + "Mar" == "XLWelcomeMar";
  }

  /** On 10 October 2026 the code is for November. */
  lemma CouponInOctober()
    ensures CouponCode(Date(2026, 10, 10)) == Some("XLWelcomeNov")
  {
    assert AddDays(Date(2026, 10, 10), 32) == AddDays(Date(2026, 11, 1), 10);
    assert CouponDate(Date(2026, 10, 10)) == Date(2026, 11, 11);
    assert MonthAbbr(11) == "Nov";
    assert "XLWelcome" + "Nov" == "XLWelcomeNov";
  }

  /** In December the code is for January of the next year. */
  lemma CouponInDecember()
    ensures CouponCode(Date(2026, 12, 15)) == Some("XLWelcomeJan")
  {
    assert AddDays(Date(2026, 12, 15), 32) == AddDays(Date(2027, 1, 1), 15);
    assert CouponDate(Date(2026, 12, 15)) == Date(2027, 1, 16);
    assert MonthAbbr(1) == "Jan";
    assert "XLWelcome" + "Jan" == "XLWelcomeJan";
  }
}

=== FILE: crop.dfy ===
/** `_resize_and_crop`, shared verbatim by the three template engines: the
    source is cut to the target's aspect ratio by a centred crop along the
    axis where it is too long, then resized to exactly the target size. */
module Crop {
  import opened Geometry

  /** The crop box taken from the source, and the size it is resized to. */
  datatype Fitted = Fitted(box: Rect, output: Size)

  /** Whether the source is wider than the target in aspect ratio; the
      source compares `width / height` as floats, here cross-multiplied. */
  predicate WiderThan(source: Size, target: Size) {
    source.width * target.height > source.height * target.width
  }

  /** The whole source as a rectangle. */
  function Full(source: Size): Rect {
    Rect(0, 0, source.width, source.height)
  }

  function ResizeAndCrop(source: Size, target: Size): (f: Fitted)
    requires Positive(source) && Positive(target)
    // the result has exactly the requested size
    ensures f.output == target
    // the crop box never leaves the source
    ensures Inside(f.box, Full(source))
    // the full height is kept exactly when the source is too wide, the full width otherwise
    ensures WiderThan(source, target) <==> (f.box.y == 0 && f.box.h == source.height && f.box.w < source.width)
    ensures !WiderThan(source, target) ==> f.box.x == 0 && f.box.w == source.width
    // the crop is centred: the two margins differ by at most one pixel
    ensures f.box.x <= source.width - Right(f.box) <= f.box.x + 1
    ensures f.box.y <= source.height - Bottom(f.box) <= f.box.y + 1
    // the box is the largest one of the target's aspect along the cut axis
    ensures WiderThan(source, target) ==>
      f.box.w * target.height <= f.box.h * target.width < (f.box.w + 1) * target.height
    ensures !WiderThan(source, target) ==>
      f.box.h * target.width <= f.box.w * target.height < (f.box.h + 1) * target.width
  {
    var (sw, sh, tw, th) := (source.width, source.height, target.width, target.height);
    if sw * th > sh * tw then
      var nw := sh * tw / th;
      FloorDiv(sh * tw, th);
      MulLess(nw, sw, th);
      Fitted(Rect((sw - nw) / 2, 0, nw, sh), target)
    else
      var nh := sw * th / tw;
      FloorDiv(sw * th, tw);
      MulAtMost(nh, sh, tw);
      Fitted(Rect(0, (sh - nh) / 2, sw, nh), target)
  }

  /** A square photo cut for a wide cell keeps its full width and loses rows
      evenly at the top and the bottom. */
  lemma SquareIntoWideCell()
    ensures ResizeAndCrop(Size(400, 400), Size(1340, 890)) == Fitted(Rect(0, 67, 400, 265), Size(1340, 890))
  {
  }

  /** A panorama cut for a square cell keeps its full height and loses
      columns evenly at both sides. */
  lemma PanoramaIntoSquareCell()
    ensures ResizeAndCrop(Size(400, 200), Size(100, 100)) == Fitted(Rect(100, 0, 200, 200), Size(100, 100))
  {
  }
}

=== FILE: engines.dfy ===
/** Template dispatch (`apply_template`) in the three copies of the engine:
    the canonical ten-template engine, the five-template copy embedded in the
    generation service, and the legacy four-template engine. All three share
    the layouts and the crop; they differ in which names they know and in
    what an unknown name does. */
module Engines {
  import opened Results
  import opened Geometry
  import opened Crop
  import opened Layouts

  datatype Engine = Canonical | Embedded | Legacy

  /** Why `apply_template` raises: too few photos for a known template (a
      `ValueError`), an unknown name in the legacy engine (a `ValueError`),
      or an unknown name with no photo at all (the `IndexError` of
      `image_urls[0]` in the fallback). */
  datatype TemplateError =
    | TooFewPhotos(template: Template, required: nat)
    | Unsupported(name: string)
    | NoPhoto

  /** One paste of a rendered front: the photo at `url`, cut by `fit` to the
      size of `at` and pasted at its corner, or the collage's white panel. */
  datatype Paste = PastePhoto(url: string, fit: Fitted, at: Rect) | PastePanel(at: Rect)

  datatype Front = Front(canvas: Size, pastes: seq<Paste>)

  /** Whether the engine's `apply_template` has a branch for the template. */
  predicate Knows(e: Engine, t: Template) {
    match e
    case Canonical => true
    case Embedded => t in {Single, TwoSideBySide, ThreePhotos, FourQuarters, TwoVertical}
    case Legacy => t in {Single, TwoSideBySide, ThreePhotos, FourQuarters}
  }

  /** The template a name selects in the canonical engine. */
  function Parse(name: string): (t: Option<Template>)
    ensures t.Some? ==> Name(t.value) == name
  {
    if name == "single" then Some(Single)
    else if name == "two_side_by_side" then Some(TwoSideBySide)
    else if name == "three_photos" then Some(ThreePhotos)
    else if name == "four_quarters" then Some(FourQuarters)
    else if name == "two_vertical" then Some(TwoVertical)
    else if name == "five_collage" then Some(FiveCollage)
    else if name == "six_grid" then Some(SixGrid)
    else if name == "three_horizontal" then Some(ThreeHorizontal)
    else if name == "three_bookmarks" then Some(ThreeBookmarks)
    else if name == "three_sideways" then Some(ThreeSideways)
    else None
  }

  /** Every template's name parses back to it. */
  lemma ParseName(t: Template)
    ensures Parse(Name(t)) == Some(t)
  {
  }

  /** The template a name selects in the given engine, if it has a branch for it. */
  function Lookup(e: Engine, name: string): (t: Option<Template>)
    ensures t.Some? <==> exists u :: Knows(e, u) && Name(u) == name
    ensures t.Some? ==> Knows(e, t.value) && Name(t.value) == name
  {
    var p := Parse(name);
    if p.Some? && Knows(e, p.value) then p
    else
      assert forall u :: Name(u) == name ==> p == Some(u) by {
        forall u | Name(u) == name ensures p == Some(u) { ParseName(u); }
      }
      None
  }

  /** `get_supported_templates` of the legacy engine. */
  function SupportedTemplates(): (names: seq<string>)
    ensures |names| == 4
    ensures forall n :: n in names <==> Lookup(Legacy, n).Some?
  {
    var names := ["single", "two_side_by_side", "three_photos", "four_quarters"];
    assert forall n :: n in names <==> Lookup(Legacy, n).Some? by {
      forall n ensures n in names <==> Lookup(Legacy, n).Some? {
        if n in names {
          assert Parse(n).Some?;
        }
        if Lookup(Legacy, n).Some? {
          var t := Lookup(Legacy, n).value;
          assert Name(t) == n;
        }
      }
    }
    names
  }

  /** What `_load_image_from_url` yields for a fetch outcome: the image's
      size, or the 400x400 light-grey placeholder when loading failed. */
  function Loaded(fetched: Option<Size>): (s: Size)
    requires fetched.Some? ==> Positive(fetched.value)
    ensures Positive(s)
    ensures fetched.None? ==> s == Size(400, 400)
  {
    if fetched.Some? then fetched.value else Size(400, 400)
  }

  /** Image loading as a parameter: the size each url decodes to, or `None`
      when fetching or decoding fails. Decoded images are never empty. */
  ghost predicate Fetcher(fetch: string -> Option<Size>) {
    forall u :: fetch(u).Some? ==> Positive(fetch(u).value)
  }

  /** `_resize_and_crop` of the image a url loads to, for a cell. */
  function Cut(url: string, at: Rect, fetch: string -> Option<Size>): (f: Fitted)
    requires Fetcher(fetch) && Solid(at)
    ensures f.output == SizeOf(at)
    ensures Inside(f.box, Full(Loaded(fetch(url))))
  {
    var fetched := fetch(url);
    assert fetched.Some? ==> Positive(fetched.value);
    ResizeAndCrop(Loaded(fetched), SizeOf(at))
  }

  /** The paste for one cell of a layout. */
  function PasteOf(p: Paint, urls: seq<string>, fetch: string -> Option<Size>): (r: Paste)
    requires Fetcher(fetch) && Solid(p.at) && (p.Photo? ==> p.index < |urls|)
    ensures r.at == p.at && (r.PastePhoto? <==> p.Photo?)
    ensures p.Photo? ==> r.url == urls[p.index] && r.fit == Cut(urls[p.index], p.at, fetch)
  {
    match p
    case Photo(i, at) => PastePhoto(urls[i], Cut(urls[i], at, fetch), at)
    case Panel(at) => PastePanel(at)
  }

  /** The pastes of a layout, each photo cut from the image its url loads to. */
  function Pastes(paints: seq<Paint>, urls: seq<string>, fetch: string -> Option<Size>): (r: seq<Paste>)
    requires Fetcher(fetch)
    requires forall i :: 0 <= i < |paints| ==> Solid(paints[i].at)
    requires forall i :: 0 <= i < |paints| && paints[i].Photo? ==> paints[i].index < |urls|
    ensures |r| == |paints|
    ensures forall i :: 0 <= i < |r| ==> r[i] == PasteOf(paints[i], urls, fetch)
  {
    seq(|paints|, i requires 0 <= i < |paints| => PasteOf(paints[i], urls, fetch))
  }

  /** The front a template renders on a canvas from the request's photos. */
  function Render(t: Template, canvas: Size, urls: seq<string>, fetch: string -> Option<Size>): (f: Front)
    requires Roomy(canvas) && Fetcher(fetch) && |urls| >= Required(t)
    ensures f.canvas == canvas
    ensures |f.pastes| == |Layout(t, canvas)|
    ensures forall i :: 0 <= i < |f.pastes| ==> Within(f.pastes[i].at, canvas)
    ensures forall i :: 0 <= i < |f.pastes| && f.pastes[i].PastePhoto? ==>
      f.pastes[i].fit.output == SizeOf(f.pastes[i].at) && f.pastes[i].url in urls[..Required(t)]
    // paste i is cell i of the layout, in the layout's order, showing that cell's photo
    ensures forall i :: 0 <= i < |f.pastes| ==>
      && f.pastes[i].at == Layout(t, canvas)[i].at
      && (f.pastes[i].PastePhoto? <==> Layout(t, canvas)[i].Photo?)
      && (Layout(t, canvas)[i].Photo? ==>
            Layout(t, canvas)[i].index < Required(t) && f.pastes[i].url == urls[Layout(t, canvas)[i].index])
  {
    var L := Layout(t, canvas);
    LayoutFits(t, canvas);
    LayoutUsesFirstPhotos(t, canvas);
    PhotoIndicesBelow(L, Required(t));
    PastesFollow(L, urls, fetch, canvas, Required(t));
    Front(canvas, Pastes(L, urls, fetch))
  }

  /** Pasting any layout that fits the canvas and uses only the first `n`
      photos: paste i sits at cell i and shows that cell's photo, cut to size. */
  lemma PastesFollow(L: seq<Paint>, urls: seq<string>, fetch: string -> Option<Size>, canvas: Size, n: nat)
    requires Fetcher(fetch) && AllWithin(L, canvas) && n <= |urls|
    requires forall i :: 0 <= i < |L| && L[i].Photo? ==> L[i].index < n
    ensures var r := Pastes(L, urls, fetch);
      && (forall i :: 0 <= i < |r| ==> Within(r[i].at, canvas))
      && (forall i :: 0 <= i < |r| && r[i].PastePhoto? ==>
            r[i].fit.output == SizeOf(r[i].at) && r[i].url in urls[..n])
      && (forall i :: 0 <= i < |r| ==>
            && r[i].at == L[i].at
            && (r[i].PastePhoto? <==> L[i].Photo?)
            && (L[i].Photo? ==> r[i].url == urls[L[i].index]))
  {
    var r := Pastes(L, urls, fetch);
    forall i | 0 <= i < |r|
      ensures Within(r[i].at, canvas)
      ensures r[i].PastePhoto? ==> r[i].fit.output == SizeOf(r[i].at) && r[i].url in urls[..n]
      ensures r[i].at == L[i].at && (r[i].PastePhoto? <==> L[i].Photo?)
      ensures L[i].Photo? ==> r[i].url == urls[L[i].index]
    {
      assert r[i] == PasteOf(L[i], urls, fetch);
      if L[i].Photo? {
        assert urls[..n][L[i].index] == urls[L[i].index];
      }
    }
  }

  /** On the rendered front the photos of every template but five_collage
      stay the template's gap apart, as its layout promises. */
  lemma RenderKeepsGaps(t: Template, canvas: Size, urls: seq<string>, fetch: string -> Option<Size>)
    requires Roomy(canvas) && Fetcher(fetch) && |urls| >= Required(t) && t != FiveCollage
    ensures var f := Render(t, canvas, urls, fetch);
      forall i, j :: 0 <= i < j < |f.pastes| ==> Apart(f.pastes[i].at, f.pastes[j].at, Gap(t))
  {
    var f := Render(t, canvas, urls, fetch);
    var L := Layout(t, canvas);
    LayoutFits(t, canvas);
    forall i, j | 0 <= i < j < |f.pastes|
      ensures Apart(f.pastes[i].at, f.pastes[j].at, Gap(t))
    {
      assert f.pastes[i].at == L[i].at && f.pastes[j].at == L[j].at;
    }
  }

  /** five_collage pastes the four quarters from photos 0 to 3, then the
      white panel, then photo 4 inside the panel, on top of it. */
  lemma RenderStacksCollage(canvas: Size, urls: seq<string>, fetch: string -> Option<Size>)
    requires Roomy(canvas) && Fetcher(fetch) && |urls| >= 5
    ensures var f := Render(FiveCollage, canvas, urls, fetch);
      && |f.pastes| == 6
      && (forall i :: 0 <= i < 4 ==> f.pastes[i].PastePhoto? && f.pastes[i].url == urls[i])
      && f.pastes[4].PastePanel? && f.pastes[5].PastePhoto? && f.pastes[5].url == urls[4]
      && Inside(f.pastes[5].at, f.pastes[4].at)
  {
    var L := Layout(FiveCollage, canvas);
    FiveCollageOverlay(canvas);
    assert L == Quarters(canvas) + Overlay(canvas);
    forall i | 0 <= i < 4 ensures L[i].Photo? && L[i].index == i {
      assert L[i] == Quarters(canvas)[i];
    }
  }

  /** A photo's index appears among the layout's indices. */
  lemma {:induction false} PhotoIndicesBelow(paints: seq<Paint>, n: nat)
    requires Indices(paints) == Upto(n)
    ensures forall i :: 0 <= i < |paints| && paints[i].Photo? ==> paints[i].index < n
  {
    forall i | 0 <= i < |paints| && paints[i].Photo?
      ensures paints[i].index < n
    {
      IndexListed(paints, i);
      var k :| 0 <= k < n && Upto(n)[k] == paints[i].index;
    }
  }

  lemma {:induction false} IndexListed(paints: seq<Paint>, i: nat)
    requires i < |paints| && paints[i].Photo?
    ensures paints[i].index in Indices(paints)
    decreases |paints|
  {
    if i < |paints| - 1 {
      assert paints[..|paints| - 1][i] == paints[i];
      IndexListed(paints[..|paints| - 1], i);
    }
  }

  /** `apply_template` of the given engine on a postcard size and the
      request's photo urls. */
  function Apply(e: Engine, name: string, postcardSize: string, urls: seq<string>,
                 fetch: string -> Option<Size>): Result<Front, TemplateError>
    requires Fetcher(fetch)
  {
    var canvas := EngineCanvas(postcardSize);
    EngineCanvasRoomy(postcardSize);
    match Lookup(e, name)
    case Some(t) =>
      if |urls| < Required(t) then Err(TooFewPhotos(t, Required(t)))
      else Ok(Render(t, canvas, urls, fetch))
    case None =>
      if e == Legacy then Err(Unsupported(name))
      else if |urls| == 0 then Err(NoPhoto)
      else Ok(Render(Single, canvas, urls, fetch))
  }

  // ---------------------------------------------------------------------------
  // What the dispatch promises
  // ---------------------------------------------------------------------------

  /** A known template raises its count error exactly when fewer photos than
      it needs are given. */
  lemma TooFewIff(e: Engine, name: string, postcardSize: string, urls: seq<string>,
                  fetch: string -> Option<Size>, t: Template)
    requires Fetcher(fetch)
    ensures Apply(e, name, postcardSize, urls, fetch) == Err(TooFewPhotos(t, Required(t)))
        <==> Knows(e, t) && Name(t) == name && |urls| < Required(t)
  {
    if Knows(e, t) && Name(t) == name {
      ParseName(t);
    }
  }

  /** The canonical and the embedded engine render an unknown name as
      "single" on the first photo, and fail only when there is no photo. */
  lemma UnknownFallsBack(e: Engine, name: string, postcardSize: string, urls: seq<string>,
                         fetch: string -> Option<Size>)
    requires Fetcher(fetch) && e != Legacy && Lookup(e, name).None?
    ensures |urls| > 0 ==> Apply(e, name, postcardSize, urls, fetch) == Apply(e, "single", postcardSize, urls, fetch)
    ensures |urls| == 0 <==> Apply(e, name, postcardSize, urls, fetch) == Err(NoPhoto)
  {
    ParseName(Single);
  }

  /** The legacy engine rejects exactly the names `get_supported_templates`
      does not list, whatever the photos; the other two never reject a name. */
  lemma UnsupportedIff(e: Engine, name: string, postcardSize: string, urls: seq<string>,
                       fetch: string -> Option<Size>)
    requires Fetcher(fetch)
    ensures Apply(e, name, postcardSize, urls, fetch).Err? && Apply(e, name, postcardSize, urls, fetch).error.Unsupported?
        <==> e == Legacy && name !in SupportedTemplates()
  {
  }

  /** Where the copies share a template they render it identically: the
      embedded and legacy engines agree with the canonical one on every
      template they know. */
  lemma CopiesAgree(e: Engine, t: Template, postcardSize: string, urls: seq<string>,
                    fetch: string -> Option<Size>)
    requires Fetcher(fetch) && Knows(e, t)
    ensures Apply(e, Name(t), postcardSize, urls, fetch) == Apply(Canonical, Name(t), postcardSize, urls, fetch)
  {
    ParseName(t);
  }

  /** The embedded copy knows none of the five newer templates: asked for
      one, it renders the first photo alone (where the canonical engine
      renders the whole layout, `CanonicalRendersLayout`). */
  lemma EmbeddedIgnoresNewTemplates(t: Template, postcardSize: string, urls: seq<string>,
                                    fetch: string -> Option<Size>)
    requires Fetcher(fetch) && !Knows(Embedded, t) && |urls| >= 1
    ensures Apply(Embedded, Name(t), postcardSize, urls, fetch) == Apply(Embedded, "single", postcardSize, urls, fetch)
    ensures Apply(Embedded, Name(t), postcardSize, urls, fetch).Ok?
         && |Apply(Embedded, Name(t), postcardSize, urls, fetch).value.pastes| == 1
  {
    var canvas := EngineCanvas(postcardSize);
    EngineCanvasRoomy(postcardSize);
    assert Apply(Embedded, Name(t), postcardSize, urls, fetch) == Ok(Render(Single, canvas, urls, fetch)) by {
      ParseName(t);
    }
    assert Apply(Embedded, "single", postcardSize, urls, fetch) == Ok(Render(Single, canvas, urls, fetch)) by {
      ParseName(Single);
    }
  }

  /** Given enough photos the canonical engine renders every paste of the
      named template's layout, at least one per required photo. */
  lemma CanonicalRendersLayout(t: Template, postcardSize: string, urls: seq<string>,
                               fetch: string -> Option<Size>)
    requires Fetcher(fetch) && |urls| >= Required(t)
    ensures Apply(Canonical, Name(t), postcardSize, urls, fetch).Ok?
         && |Apply(Canonical, Name(t), postcardSize, urls, fetch).value.pastes| == |Layout(t, EngineCanvas(postcardSize))|
         >= Required(t)
  {
    var canvas := EngineCanvas(postcardSize);
    EngineCanvasRoomy(postcardSize);
    ParseName(t);
    LayoutUsesFirstPhotos(t, canvas);
    IndicesLength(Layout(t, canvas));
  }

  lemma {:induction false} IndicesLength(paints: seq<Paint>)
    ensures |Indices(paints)| <= |paints|
    decreases |paints|
  {
    if |paints| > 0 {
      IndicesLength(paints[..|paints| - 1]);
    }
  }

  /** A successful front is drawn on the engine's canvas, every paste inside
      it, and every photo resized to exactly its cell. */
  lemma FrontFits(e: Engine, name: string, postcardSize: string, urls: seq<string>,
                  fetch: string -> Option<Size>)
    requires Fetcher(fetch) && Apply(e, name, postcardSize, urls, fetch).Ok?
    ensures var f := Apply(e, name, postcardSize, urls, fetch).value;
      && f.canvas == EngineCanvas(postcardSize)
      && |f.pastes| >= 1
      && (forall i :: 0 <= i < |f.pastes| ==> Within(f.pastes[i].at, f.canvas))
      && (forall i :: 0 <= i < |f.pastes| && f.pastes[i].PastePhoto? ==>
            f.pastes[i].fit.output == SizeOf(f.pastes[i].at) && f.pastes[i].url in urls)
  {
    var f := Apply(e, name, postcardSize, urls, fetch).value;
    var t := if Lookup(e, name).Some? then Lookup(e, name).value else Single;
    EngineCanvasRoomy(postcardSize);
    var L := Layout(t, EngineCanvas(postcardSize));
    LayoutUsesFirstPhotos(t, EngineCanvas(postcardSize));
    IndicesLength(L);
    forall i | 0 <= i < |f.pastes| && f.pastes[i].PastePhoto?
      ensures f.pastes[i].url in urls
    {
      assert f.pastes[i].url in urls[..Required(t)];
    }
  }
}

=== FILE: generation.dfy ===
/** The bookkeeping of `generate_complete_postcard_service` around the two
    images: which path makes the front, what the front and back urls become
    when a step fails, and the upsert into the in-memory transaction store.
    Uploads, the direct download and the clock are parameters. */
module Generation {
  import opened Results
  import opened Geometry
  import opened Requests
  import Text
  import Engines
  import Layouts
  import BackFace
  import Calendar

  /** A url handed back to the client: a link, or the back image inlined as
      a JPEG `data:` url. */
  datatype ImageUrl = Link(url: string) | BackAsDataUrl

  /** How the front is to be made, decided before anything is loaded. */
  datatype FrontPlan =
    | FromTemplate(template: string, urls: seq<string>)
    | Direct(url: string, size: Size)
    /** The "No front image(s) provided" exception. */
    | NoFrontImage

  /** The front image the try-block produces. */
  datatype FrontImage = Composed(front: Engines.Front) | Stretched(url: string, size: Size)

  /** What the outside world does: the upload of the front (`None` when it
      raises), whether the direct download succeeds, the upload of the back,
      and the image loader of the template engine. */
  datatype World = World(
    frontUpload: Option<string>,
    directLoads: bool,
    backUpload: Option<string>,
    fetch: string -> Option<Size>)

  const ReadyForPayment := "ready_for_payment"

  /** The size the direct path stretches the photo to. */
  function DirectSize(postcardSize: string): (s: Size)
    // the same canvas the template engines draw on
    ensures s == Layouts.EngineCanvas(postcardSize)
  {
    if postcardSize == "xl" then Size(2700, 1800) else Size(1800, 1200)
  }

  /** The template path runs when the engine is available and a template
      other than "single" is named. */
  predicate UsesTemplate(req: PostcardRequest, engineAvailable: bool) {
    engineAvailable && Given(req.templateType) && req.templateType.value != "single"
  }

  predicate HasUris(req: PostcardRequest) {
    req.frontImageUris.Some? && |req.frontImageUris.value| > 0
  }

  function PlanFront(req: PostcardRequest, engineAvailable: bool): (plan: FrontPlan)
    ensures plan.FromTemplate? <==> UsesTemplate(req, engineAvailable) && (HasUris(req) || Given(req.frontImageUri))
    ensures plan.FromTemplate? ==> plan.template == req.templateType.value && |plan.urls| > 0
    // the photo list wins over the single photo
    ensures plan.FromTemplate? && HasUris(req) ==> plan.urls == req.frontImageUris.value
    ensures plan.FromTemplate? && !HasUris(req) ==> plan.urls == [req.frontImageUri.value]
    // the single photo wins on the direct path; the size follows the engine's canvas
    ensures plan.Direct? ==>
      && !UsesTemplate(req, engineAvailable) && plan.url != ""
      && plan.size == DirectSize(req.postcardSize)
      && (Given(req.frontImageUri) || HasUris(req))
      && plan.url == (if Given(req.frontImageUri) then req.frontImageUri.value else req.frontImageUris.value[0])
    ensures plan.NoFrontImage? <==>
      if UsesTemplate(req, engineAvailable) then !HasUris(req) && !Given(req.frontImageUri)
      else !Given(req.frontImageUri) && (!HasUris(req) || req.frontImageUris.value[0] == "")
  {
    if UsesTemplate(req, engineAvailable) then
      if HasUris(req) then FromTemplate(req.templateType.value, req.frontImageUris.value)
      else if Given(req.frontImageUri) then FromTemplate(req.templateType.value, [req.frontImageUri.value])
      else NoFrontImage
    else
      var url := if Given(req.frontImageUri) then req.frontImageUri.value
                 else if HasUris(req) then req.frontImageUris.value[0]
                 else "";
      if url == "" then NoFrontImage else Direct(url, DirectSize(req.postcardSize))
  }

  /** The try-block: the front image and its uploaded url, or `None` when
      any step raises (no photo, a count error, a failed download or upload). */
  function TryFront(req: PostcardRequest, engineAvailable: bool, world: World): (r: Option<(FrontImage, string)>)
    requires Engines.Fetcher(world.fetch)
    ensures r.Some? ==> world.frontUpload == Some(r.value.1)
    ensures r.Some? && r.value.0.Composed? ==> PlanFront(req, engineAvailable).FromTemplate?
    ensures r.Some? && r.value.0.Stretched? ==> PlanFront(req, engineAvailable).Direct? && world.directLoads
    // the try-block succeeds exactly when its path works and the upload goes through
    ensures var plan := PlanFront(req, engineAvailable);
      r.Some? <==> (world.frontUpload.Some? &&
                    ((plan.FromTemplate? && Engines.Apply(Engines.Embedded, plan.template, req.postcardSize, plan.urls, world.fetch).Ok?)
                     || (plan.Direct? && world.directLoads)))
    // and what it composes is the embedded engine's front, or the photo stretched to the plan's size
    ensures var plan := PlanFront(req, engineAvailable);
      r.Some? && plan.FromTemplate? ==>
        r.value.0 == Composed(Engines.Apply(Engines.Embedded, plan.template, req.postcardSize, plan.urls, world.fetch).value)
    ensures var plan := PlanFront(req, engineAvailable);
      r.Some? && plan.Direct? ==> r.value.0 == Stretched(plan.url, plan.size)
  {
    match PlanFront(req, engineAvailable)
    case NoFrontImage => None
    case FromTemplate(name, urls) =>
      var front := Engines.Apply(Engines.Embedded, name, req.postcardSize, urls, world.fetch);
      if front.Err? || world.frontUpload.None? then None
      else Some((Composed(front.value), world.frontUpload.value))
    case Direct(url, size) =>
      if !world.directLoads || world.frontUpload.None? then None
      else Some((Stretched(url, size), world.frontUpload.value))
  }

  /** The front url: the upload when the try-block succeeds; otherwise the
      app's own url when it is an http(s) link, else the back image inlined. */
  function FrontUrl(req: PostcardRequest, engineAvailable: bool, world: World): (u: ImageUrl)
    requires Engines.Fetcher(world.fetch)
    ensures TryFront(req, engineAvailable, world).Some? ==> u == Link(world.frontUpload.value)
    ensures u.Link? && TryFront(req, engineAvailable, world).None? ==>
      Given(req.frontImageUri) && u.url == req.frontImageUri.value
    ensures u.BackAsDataUrl? <==>
      TryFront(req, engineAvailable, world).None? && !(Given(req.frontImageUri) && Text.StartsWith(req.frontImageUri.value, "http"))
  {
    var attempt := TryFront(req, engineAvailable, world);
    if attempt.Some? then Link(attempt.value.1)
    else if Given(req.frontImageUri) && Text.StartsWith(req.frontImageUri.value, "http") then Link(req.frontImageUri.value)
    else BackAsDataUrl
  }

  /** A template front that renders and uploads is the card's front: the
      request names a template the embedded engine knows, gives enough
      photos, and the upload returns a url. */
  lemma TemplateFrontUploaded(req: PostcardRequest, world: World, t: Layouts.Template)
    requires Engines.Fetcher(world.fetch)
    requires UsesTemplate(req, true) && req.templateType.value == Layouts.Name(t) && Engines.Knows(Engines.Embedded, t)
    requires HasUris(req) && |req.frontImageUris.value| >= Layouts.Required(t)
    requires world.frontUpload.Some?
    ensures TryFront(req, true, world).Some? && TryFront(req, true, world).value.0.Composed?
    ensures FrontUrl(req, true, world) == Link(world.frontUpload.value)
  {
    Engines.ParseName(t);
    Engines.TooFewIff(Engines.Embedded, Layouts.Name(t), req.postcardSize, req.frontImageUris.value, world.fetch, t);
  }

  /** The direct path's photo is the card's front when it downloads and uploads. */
  lemma DirectFrontUploaded(req: PostcardRequest, engineAvailable: bool, world: World)
    requires Engines.Fetcher(world.fetch)
    requires !UsesTemplate(req, engineAvailable) && Given(req.frontImageUri)
    requires world.directLoads && world.frontUpload.Some?
    ensures TryFront(req, engineAvailable, world).Some?
    ensures TryFront(req, engineAvailable, world).value.0 == Stretched(req.frontImageUri.value, DirectSize(req.postcardSize))
    ensures FrontUrl(req, engineAvailable, world) == Link(world.frontUpload.value)
  {
  }

  /** When the try-block fails, the front is the app's link exactly when it
      starts with "http", and the back image otherwise. */
  lemma FrontFallback(req: PostcardRequest, engineAvailable: bool, world: World)
    requires Engines.Fetcher(world.fetch)
    requires TryFront(req, engineAvailable, world).None?
    ensures FrontUrl(req, engineAvailable, world).Link? <==>
      req.frontImageUri.Some? && Text.StartsWith(req.frontImageUri.value, "http")
    ensures FrontUrl(req, engineAvailable, world).Link? ==> FrontUrl(req, engineAvailable, world).url == req.frontImageUri.value
  {
  }

  /** A template that needs more photos than given never fails the request:
      the error is caught and the front falls back. */
  lemma TooFewPhotosFallsBack(req: PostcardRequest, world: World, t: Layouts.Template)
    requires Engines.Fetcher(world.fetch)
    requires UsesTemplate(req, true) && req.templateType.value == Layouts.Name(t)
    requires Engines.Knows(Engines.Embedded, t)
    requires PlanFront(req, true).FromTemplate? && |PlanFront(req, true).urls| < Layouts.Required(t)
    ensures TryFront(req, true, world).None?
    ensures FrontUrl(req, true, world) ==
      if Given(req.frontImageUri) && Text.StartsWith(req.frontImageUri.value, "http") then Link(req.frontImageUri.value)
      else BackAsDataUrl
  {
    var plan := PlanFront(req, true);
    Engines.TooFewIff(Engines.Embedded, plan.template, req.postcardSize, plan.urls, world.fetch, t);
  }

  /** "single" always takes the direct path (or fails for want of a photo),
      even with several photos. */
  lemma SingleIsDirect(req: PostcardRequest, engineAvailable: bool)
    requires req.templateType == Some("single")
    ensures !PlanFront(req, engineAvailable).FromTemplate?
  {
  }

  // ---------------------------------------------------------------------------
  // The transaction store
  // ---------------------------------------------------------------------------

  /** A stored transaction (`created_at` is the clock reading passed in). */
  datatype TxRecord = TxRecord(
    frontUrl: ImageUrl,
    backUrl: ImageUrl,
    recipientInfo: Recipient,
    message: string,
    postcardSize: string,
    status: string,
    createdAt: string,
    userEmail: string)

  type Store = map<string, TxRecord>

  /** The email kept: the request's when it is non-empty, else the stored one. */
  function FinalEmail(store: Store, req: PostcardRequest): (email: string)
    ensures Given(req.userEmail) ==> email == req.userEmail.value
    ensures !Given(req.userEmail) && req.transactionId in store ==> email == store[req.transactionId].userEmail
    ensures !Given(req.userEmail) && req.transactionId !in store ==> email == ""
  {
    if Given(req.userEmail) then req.userEmail.value
    else if req.transactionId in store then store[req.transactionId].userEmail
    else ""
  }

  /** `transaction_store[id] = {...}`: the record is replaced whole. */
  function Upsert(store: Store, req: PostcardRequest, front: ImageUrl, back: ImageUrl, now: string): (s: Store)
    ensures s.Keys == store.Keys + {req.transactionId}
    ensures forall id :: id in store && id != req.transactionId ==> s[id] == store[id]
    ensures s[req.transactionId].status == ReadyForPayment
    ensures s[req.transactionId].frontUrl == front && s[req.transactionId].backUrl == back
    ensures s[req.transactionId].userEmail == FinalEmail(store, req)
  {
    store[req.transactionId := TxRecord(front, back, req.recipientInfo, req.message, req.postcardSize,
                                        ReadyForPayment, now, FinalEmail(store, req))]
  }

  /** An email, once stored, survives later requests that carry none. */
  lemma EmailSticks(store: Store, first: PostcardRequest, second: PostcardRequest,
                    f1: ImageUrl, b1: ImageUrl, t1: string, f2: ImageUrl, b2: ImageUrl, t2: string)
    requires first.transactionId == second.transactionId
    requires Given(first.userEmail) && !Given(second.userEmail)
    ensures Upsert(Upsert(store, first, f1, b1, t1), second, f2, b2, t2)[second.transactionId].userEmail
         == first.userEmail.value
  {
  }

  /** Replaying the same request with the same results changes nothing more. */
  lemma UpsertIdempotent(store: Store, req: PostcardRequest, front: ImageUrl, back: ImageUrl, now: string)
    ensures Upsert(Upsert(store, req, front, back, now), req, front, back, now) == Upsert(store, req, front, back, now)
  {
    var once := Upsert(store, req, front, back, now);
    assert FinalEmail(once, req) == FinalEmail(store, req);
  }

  // ---------------------------------------------------------------------------
  // The whole call
  // ---------------------------------------------------------------------------

  datatype Response = Response(transactionId: string, frontUrl: ImageUrl, backUrl: ImageUrl, status: string)

  /** One call: the back's layout, the front and back urls, the updated
      store and the response. */
  function Generate(req: PostcardRequest, store: Store, engineAvailable: bool, world: World,
                    today: Calendar.Date, measure: (string, nat) -> nat, logo: Option<Size>, now: string)
    : (r: (BackFace.Back, Store, Response))
    requires Engines.Fetcher(world.fetch) && Calendar.Valid(today)
    requires logo.Some? ==> Positive(logo.value)
    ensures r.2.status == ReadyForPayment && r.2.transactionId == req.transactionId
    ensures r.1 == Upsert(store, req, r.2.frontUrl, r.2.backUrl, now)
    ensures r.2.backUrl == (if world.backUpload.Some? then Link(world.backUpload.value) else BackAsDataUrl)
    ensures r.2.frontUrl.Link? && TryFront(req, engineAvailable, world).None? ==> Given(req.frontImageUri)
    ensures r.2.frontUrl == FrontUrl(req, engineAvailable, world)
    ensures r.0 == BackFace.BackLayout(req, today, measure, logo)
  {
    var back := BackFace.BackLayout(req, today, measure, logo);
    var front := FrontUrl(req, engineAvailable, world);
    var backUrl := if world.backUpload.Some? then Link(world.backUpload.value) else BackAsDataUrl;
    (back, Upsert(store, req, front, backUrl, now), Response(req.transactionId, front, backUrl, ReadyForPayment))
  }
}

=== FILE: geometry.dfy ===
/** Pixel geometry shared by the template engines and the back face: image
    sizes and axis-aligned rectangles in canvas coordinates (origin at the
    top-left corner, y growing downwards). */
module Geometry {
  datatype Size = Size(width: int, height: int)

  /** A rectangle given by its top-left corner and its extent, the box a
      resized photo covers once pasted at `(x, y)`. */
  datatype Rect = Rect(x: int, y: int, w: int, h: int)

  predicate Positive(s: Size) {
    s.width > 0 && s.height > 0
  }

  function Right(r: Rect): int { r.x + r.w }

  function Bottom(r: Rect): int { r.y + r.h }

  function SizeOf(r: Rect): Size { Size(r.w, r.h) }

  /** The rectangle has a positive extent in both directions. */
  predicate Solid(r: Rect) {
    r.w > 0 && r.h > 0
  }

  /** The rectangle lies inside a canvas of the given size. */
  predicate Within(r: Rect, canvas: Size) {
    0 <= r.x && 0 <= r.y && Right(r) <= canvas.width && Bottom(r) <= canvas.height
  }

  /** `inner` lies inside `outer`. */
  predicate Inside(inner: Rect, outer: Rect) {
    outer.x <= inner.x && outer.y <= inner.y && Right(inner) <= Right(outer) && Bottom(inner) <= Bottom(outer)
  }

  /** The rectangles share no pixel: one lies wholly to one side of the other. */
  predicate Disjoint(a: Rect, b: Rect) {
    Right(a) <= b.x || Right(b) <= a.x || Bottom(a) <= b.y || Bottom(b) <= a.y
  }

  /** Whether pixel `(px, py)` is covered by `r`. */
  predicate Covers(r: Rect, px: int, py: int) {
    r.x <= px < Right(r) && r.y <= py < Bottom(r)
  }

  /** The separating-side test agrees with the pixel semantics: two solid
      rectangles are `Disjoint` exactly when no pixel is covered by both. */
  lemma DisjointIffNoCommonPixel(a: Rect, b: Rect)
    requires Solid(a) && Solid(b)
    ensures Disjoint(a, b) <==> forall px, py :: !(Covers(a, px, py) && Covers(b, px, py))
  {
    if !Disjoint(a, b) {
      var px := if a.x < b.x then b.x else a.x;
      var py := if a.y < b.y then b.y else a.y;
      assert Covers(a, px, py) && Covers(b, px, py);
    }
  }

  // ---------------------------------------------------------------------------
  // Integer arithmetic for pixel sizes
  // ---------------------------------------------------------------------------

  /** Floor division brackets its dividend. */
  lemma FloorDiv(a: int, b: int)
    requires a >= 0 && b > 0
    ensures a / b >= 0
    ensures (a / b) * b <= a < (a / b + 1) * b
  {
  }

  /** A product below another with the same positive factor has the smaller cofactor. */
  lemma MulLess(a: int, b: int, c: int)
    requires c > 0 && a * c < b * c
    ensures a < b
  {
    if a >= b {
      MulMono(b, a, c);
    }
  }

  lemma MulAtMost(a: int, b: int, c: int)
    requires c > 0 && a * c <= b * c
    ensures a <= b
  {
    if a > b {
      MulMono(b + 1, a, c);
    }
  }

  lemma MulMono(a: int, b: int, c: int)
    requires a <= b && c > 0
    ensures a * c <= b * c
  {
  }
}

=== FILE: layouts.dfy ===
/** The front-face layouts of the template engine (`_apply_*`): each template
    is a list of pastes onto a white canvas, computed from the canvas size
    with integer arithmetic. A photo paste names which photo of the request
    it shows (by position) and the rectangle that photo is cropped to and
    pasted at; five_collage also pastes a white bordered panel. */
module Layouts {
  import opened Geometry

  datatype Template =
    | Single | TwoSideBySide | ThreePhotos | FourQuarters | TwoVertical
    | FiveCollage | SixGrid | ThreeHorizontal | ThreeBookmarks | ThreeSideways

  /** One paste, in paste order: photo number `index` resized to `at`'s size
      and pasted at its corner, or a plain white panel. */
  datatype Paint = Photo(index: nat, at: Rect) | Panel(at: Rect)

  const RegularSize := Size(1800, 1200)
  const XLSize := Size(2700, 1800)

  /** `TemplateEngine(postcard_size)`: the XL canvas for `"xl"`, the regular
      one for any other size name. */
  function EngineCanvas(postcardSize: string): (c: Size)
    ensures c == XLSize || c == RegularSize
    ensures c == XLSize <==> postcardSize == "xl"
  {
    if postcardSize == "xl" then XLSize else RegularSize
  }

  /** The template's name as the request spells it. */
  function Name(t: Template): string {
    match t
    case Single => "single"
    case TwoSideBySide => "two_side_by_side"
    case ThreePhotos => "three_photos"
    case FourQuarters => "four_quarters"
    case TwoVertical => "two_vertical"
    case FiveCollage => "five_collage"
    case SixGrid => "six_grid"
    case ThreeHorizontal => "three_horizontal"
    case ThreeBookmarks => "three_bookmarks"
    case ThreeSideways => "three_sideways"
  }

  /** The number of photos the template needs. */
  function Required(t: Template): nat {
    match t
    case Single => 1
    case TwoSideBySide => 2
    case TwoVertical => 2
    case ThreePhotos => 3
    case ThreeHorizontal => 3
    case ThreeBookmarks => 3
    case ThreeSideways => 3
    case FourQuarters => 4
    case FiveCollage => 5
    case SixGrid => 6
  }

  /** The gap the template leaves between neighbouring photos. */
  function Gap(t: Template): nat {
    match t
    case SixGrid => 15
    case ThreeHorizontal => 15
    case ThreeBookmarks => 15
    case ThreeSideways => 15
    case _ => 20
  }

  /** `int(x * 0.7)` on IEEE doubles: the exact floor of 7x/10, except that
      for a positive multiple of ten the rounded product can fall just below
      the integer 7x/10. That happens when 4·(7x/10) exceeds 7·2^e, with 2^e
      the highest power of two not above 7x/10; so `int(1340 * 0.7)` is 937. */
  function SevenTenths(x: nat): (r: nat)
    ensures r <= 7 * x / 10 <= r + 1
    ensures x % 10 != 0 ==> r == 7 * x / 10
  {
    var n := 7 * x / 10;
    if x % 10 == 0 && x > 0 && 4 * n > 7 * HighestPowerOfTwo(n) then n - 1 else n
  }

  /** The highest power of two not above `n` (1 for 0). */
  function HighestPowerOfTwo(n: nat): (p: nat)
    ensures p >= 1
    ensures n >= 1 ==> p <= n < 2 * p
  {
    if n < 2 then 1 else 2 * HighestPowerOfTwo(n / 2)
  }

  /** `int(h * 0.4)`, which on doubles equals the exact floor of 2h/5 for
      every canvas height. */
  function TwoFifths(h: nat): nat {
    2 * h / 5
  }

  // ---------------------------------------------------------------------------
  // The ten layouts
  // ---------------------------------------------------------------------------

  function SinglePhoto(c: Size): seq<Paint> {
    [Photo(0, Rect(0, 0, c.width, c.height))]
  }

  function TwoSideBySideLayout(c: Size): seq<Paint> {
    var pw := (c.width - 20) / 2;
    [Photo(0, Rect(0, 0, pw, c.height)), Photo(1, Rect(pw + 20, 0, pw, c.height))]
  }

  function ThreePhotosLayout(c: Size): seq<Paint> {
    var lw := c.width / 2 - 20 / 2;
    var rw := c.width / 2 - 20 / 2;
    var rh := (c.height - 20) / 2;
    [Photo(0, Rect(0, 0, lw, c.height)),
     Photo(1, Rect(lw + 20, 0, rw, rh)),
     Photo(2, Rect(lw + 20, rh + 20, rw, rh))]
  }

  /** The four quarters, shared by four_quarters and the background of five_collage. */
  function Quarters(c: Size): seq<Paint> {
    var qw := (c.width - 20) / 2;
    var qh := (c.height - 20) / 2;
    [Photo(0, Rect(0, 0, qw, qh)),
     Photo(1, Rect(qw + 20, 0, qw, qh)),
     Photo(2, Rect(0, qh + 20, qw, qh)),
     Photo(3, Rect(qw + 20, qh + 20, qw, qh))]
  }

  function TwoVerticalLayout(c: Size): seq<Paint> {
    var ph := (c.height - 20) / 2;
    [Photo(0, Rect(0, 0, c.width, ph)), Photo(1, Rect(0, ph + 20, c.width, ph))]
  }

  /** The five_collage overlay: a white panel 0.7 of a quarter plus an 8 px
      border on each side, centred on the canvas, with photo 4 inside it. */
  function Overlay(c: Size): seq<Paint>
    requires c.width >= 20 && c.height >= 20
  {
    var qw := (c.width - 20) / 2;
    var qh := (c.height - 20) / 2;
    var cw := SevenTenths(qw);
    var ch := SevenTenths(qh);
    var bw := cw + 8 * 2;
    var bh := ch + 8 * 2;
    var cx := (c.width - bw) / 2;
    var cy := (c.height - bh) / 2;
    [Panel(Rect(cx, cy, bw, bh)), Photo(4, Rect(cx + 8, cy + 8, cw, ch))]
  }

  function SixGridLayout(c: Size): seq<Paint> {
    var cw := (c.width - 2 * 15) / 3;
    var ch := (c.height - 15) / 2;
    [Photo(0, Rect(0, 0, cw, ch)),
     Photo(1, Rect(cw + 15, 0, cw, ch)),
     Photo(2, Rect((cw + 15) * 2, 0, cw, ch)),
     Photo(3, Rect(0, ch + 15, cw, ch)),
     Photo(4, Rect(cw + 15, ch + 15, cw, ch)),
     Photo(5, Rect((cw + 15) * 2, ch + 15, cw, ch))]
  }

  function ThreeHorizontalLayout(c: Size): seq<Paint> {
    var pw := (c.width - 2 * 15) / 3;
    [Photo(0, Rect(0, 0, pw, c.height)),
     Photo(1, Rect(pw + 15, 0, pw, c.height)),
     Photo(2, Rect((pw + 15) * 2, 0, pw, c.height))]
  }

  function ThreeBookmarksLayout(c: Size): seq<Paint> {
    var ph := (c.height - 2 * 15) / 3;
    [Photo(0, Rect(0, 0, c.width, ph)),
     Photo(1, Rect(0, ph + 15, c.width, ph)),
     Photo(2, Rect(0, (ph + 15) * 2, c.width, ph))]
  }

  function ThreeSidewaysLayout(c: Size): seq<Paint>
    requires c.height >= 0
  {
    var th := TwoFifths(c.height);
    var bh := c.height - th - 15;
    var bw := (c.width - 15) / 2;
    [Photo(0, Rect(0, 0, c.width, th)),
     Photo(1, Rect(0, th + 15, bw, bh)),
     Photo(2, Rect(bw + 15, th + 15, bw, bh))]
  }

  /** The pastes of a template on a canvas, in paste order. */
  function Layout(t: Template, c: Size): seq<Paint>
    requires Roomy(c)
  {
    match t
    case Single => SinglePhoto(c)
    case TwoSideBySide => TwoSideBySideLayout(c)
    case ThreePhotos => ThreePhotosLayout(c)
    case FourQuarters => Quarters(c)
    case TwoVertical => TwoVerticalLayout(c)
    case FiveCollage => Quarters(c) + Overlay(c)
    case SixGrid => SixGridLayout(c)
    case ThreeHorizontal => ThreeHorizontalLayout(c)
    case ThreeBookmarks => ThreeBookmarksLayout(c)
    case ThreeSideways => ThreeSidewaysLayout(c)
  }

  /** A canvas large enough for every template to have solid cells; both
      engine canvases are. */
  predicate Roomy(c: Size) {
    c.width >= 100 && c.height >= 100
  }

  lemma EngineCanvasRoomy(postcardSize: string)
    ensures Roomy(EngineCanvas(postcardSize))
  {
  }

  // ---------------------------------------------------------------------------
  // What a layout promises
  // ---------------------------------------------------------------------------

  /** The photo numbers a layout pastes, in paste order. */
  function Indices(paints: seq<Paint>): seq<nat>
    decreases |paints|
  {
    if |paints| == 0 then []
    else Indices(paints[..|paints| - 1]) + (if paints[|paints| - 1].Photo? then [paints[|paints| - 1].index] else [])
  }

  /** `[0, 1, ..., n - 1]`. */
  function Upto(n: nat): (r: seq<nat>)
    ensures |r| == n
    ensures forall i :: 0 <= i < n ==> r[i] == i
  {
    if n == 0 then [] else Upto(n - 1) + [n - 1]
  }

  /** Every paste is a solid rectangle inside the canvas. */
  predicate AllWithin(paints: seq<Paint>, c: Size) {
    forall i :: 0 <= i < |paints| ==> Within(paints[i].at, c) && Solid(paints[i].at)
  }

  /** Two rectangles are at least `gap` pixels apart along some axis. */
  predicate Apart(a: Rect, b: Rect, gap: int) {
    Right(a) + gap <= b.x || Right(b) + gap <= a.x || Bottom(a) + gap <= b.y || Bottom(b) + gap <= a.y
  }

  /** Every two pastes are at least `gap` apart, so none overlaps another. */
  predicate Tiled(paints: seq<Paint>, gap: int) {
    forall i, j :: 0 <= i < j < |paints| ==> Apart(paints[i].at, paints[j].at, gap)
  }

  /** The furthest right and the furthest down any paste reaches. */
  function MaxRight(paints: seq<Paint>): int
    decreases |paints|
  {
    if |paints| == 0 then 0
    else
      var m := MaxRight(paints[..|paints| - 1]);
      var r := Right(paints[|paints| - 1].at);
      if r > m then r else m
  }

  function MaxBottom(paints: seq<Paint>): int
    decreases |paints|
  {
    if |paints| == 0 then 0
    else
      var m := MaxBottom(paints[..|paints| - 1]);
      var b := Bottom(paints[|paints| - 1].at);
      if b > m then b else m
  }

  /** The pastes reach to within `slack` pixels of the right and bottom edges. */
  predicate Spans(paints: seq<Paint>, c: Size, slack: int) {
    c.width - slack <= MaxRight(paints) && c.height - slack <= MaxBottom(paints)
  }

  // ---------------------------------------------------------------------------
  // The layouts keep their promises
  // ---------------------------------------------------------------------------

  /** Paste `i` is photo `i`, for every paste. */
  predicate Sequential(paints: seq<Paint>) {
    forall i :: 0 <= i < |paints| ==> paints[i].Photo? && paints[i].index == i
  }

  lemma {:induction false} SequentialIndices(paints: seq<Paint>)
    requires Sequential(paints)
    ensures Indices(paints) == Upto(|paints|)
    decreases |paints|
  {
    if |paints| > 0 {
      var init := paints[..|paints| - 1];
      assert Sequential(init) by {
        forall i | 0 <= i < |init| ensures init[i].Photo? && init[i].index == i {
          assert init[i] == paints[i];
        }
      }
      SequentialIndices(init);
    }
  }

  lemma {:induction false} IndicesAppend(a: seq<Paint>, b: seq<Paint>)
    ensures Indices(a + b) == Indices(a) + Indices(b)
    decreases |b|
  {
    if |b| == 0 {
      assert a + b == a;
    } else {
      assert (a + b)[..|a + b| - 1] == a + b[..|b| - 1];
      IndicesAppend(a, b[..|b| - 1]);
    }
  }

  /** Every template pastes photos 0 to N-1 exactly once each, in order, where
      N is its photo count: later photos of the request are never used. */
  lemma LayoutUsesFirstPhotos(t: Template, c: Size)
    requires Roomy(c)
    ensures Indices(Layout(t, c)) == Upto(Required(t))
  {
    match t
    case Single => SequentialIndices(SinglePhoto(c));
    case TwoSideBySide => SequentialIndices(TwoSideBySideLayout(c));
    case ThreePhotos => SequentialIndices(ThreePhotosLayout(c));
    case FourQuarters => SequentialIndices(Quarters(c));
    case TwoVertical => SequentialIndices(TwoVerticalLayout(c));
    case FiveCollage => FiveCollageIndices(c);
    case SixGrid => SequentialIndices(SixGridLayout(c));
    case ThreeHorizontal => SequentialIndices(ThreeHorizontalLayout(c));
    case ThreeBookmarks => SequentialIndices(ThreeBookmarksLayout(c));
    case ThreeSideways => SequentialIndices(ThreeSidewaysLayout(c));
  }

  lemma FiveCollageIndices(c: Size)
    requires Roomy(c)
    ensures Indices(Quarters(c) + Overlay(c)) == Upto(5)
  {
    var q := Quarters(c);
    var o := Overlay(c);
    assert Indices(q) == Upto(4) by {
      SequentialIndices(q);
    }
    assert Indices(o) == [4] by {
      assert o[..1] == [o[0]];
      assert Indices(o[..1]) == [];
    }
    IndicesAppend(q, o);
    assert Upto(5) == Upto(4) + [4];
  }

  /** Every paste of every template is a solid rectangle inside the canvas,
      the photos of a tiled template keep at least the template's gap between
      any two of them (so none overlaps another), and the layout reaches to
      within two pixels of the right and bottom edges (the rounding of the
      integer divisions). */
  lemma LayoutFits(t: Template, c: Size)
    requires Roomy(c)
    ensures AllWithin(Layout(t, c), c)
    ensures t != FiveCollage ==> Tiled(Layout(t, c), Gap(t))
    ensures Spans(Layout(t, c), c, 2)
  {
    match t
    case Single =>
    case TwoSideBySide =>
    case ThreePhotos => ThreePhotosFits(c);
    case FourQuarters => QuartersFit(c);
    case TwoVertical =>
    case FiveCollage => FiveCollageFits(c);
    case SixGrid => SixGridFits(c);
    case ThreeHorizontal => ThreeHorizontalFits(c);
    case ThreeBookmarks => ThreeBookmarksFit(c);
    case ThreeSideways => ThreeSidewaysFits(c);
  }

  lemma ThreePhotosFits(c: Size)
    requires Roomy(c)
    ensures AllWithin(ThreePhotosLayout(c), c) && Tiled(ThreePhotosLayout(c), 20) && Spans(ThreePhotosLayout(c), c, 2)
  {
  }

  lemma QuartersFit(c: Size)
    requires Roomy(c)
    ensures AllWithin(Quarters(c), c) && Tiled(Quarters(c), 20) && Spans(Quarters(c), c, 2)
  {
  }

  lemma SixGridFits(c: Size)
    requires Roomy(c)
    ensures AllWithin(SixGridLayout(c), c) && Tiled(SixGridLayout(c), 15) && Spans(SixGridLayout(c), c, 2)
  {
    var L := SixGridLayout(c);
    assert AllWithin(L, c);
    assert Tiled(L, 15);
  }

  lemma ThreeHorizontalFits(c: Size)
    requires Roomy(c)
    ensures AllWithin(ThreeHorizontalLayout(c), c) && Tiled(ThreeHorizontalLayout(c), 15)
    ensures Spans(ThreeHorizontalLayout(c), c, 2)
  {
  }

  lemma ThreeBookmarksFit(c: Size)
    requires Roomy(c)
    ensures AllWithin(ThreeBookmarksLayout(c), c) && Tiled(ThreeBookmarksLayout(c), 15)
    ensures Spans(ThreeBookmarksLayout(c), c, 2)
  {
  }

  lemma ThreeSidewaysFits(c: Size)
    requires Roomy(c)
    ensures AllWithin(ThreeSidewaysLayout(c), c) && Tiled(ThreeSidewaysLayout(c), 15)
    ensures Spans(ThreeSidewaysLayout(c), c, 2)
  {
  }

  lemma FiveCollageFits(c: Size)
    requires Roomy(c)
    ensures AllWithin(Quarters(c) + Overlay(c), c)
    ensures Spans(Quarters(c) + Overlay(c), c, 2)
  {
    var q := Quarters(c);
    var o := Overlay(c);
    assert Spans(q, c, 2);
    MaxAppend(q, o);
  }

  /** Appending pastes never pulls the furthest edges back. */
  lemma {:induction false} MaxAppend(a: seq<Paint>, b: seq<Paint>)
    ensures MaxRight(a + b) >= MaxRight(a) && MaxBottom(a + b) >= MaxBottom(a)
    decreases |b|
  {
    if |b| == 0 {
      assert a + b == a;
    } else {
      assert (a + b)[..|a + b| - 1] == a + b[..|b| - 1];
      MaxAppend(a, b[..|b| - 1]);
    }
  }

  /** The five_collage overlay: photo 4 is 0.7 of a quarter (as the doubles
      round it) framed by exactly 8 px of white panel on every side; the
      panel is centred on the canvas to within a pixel and overlaps all four
      quarters, the one overlap the layouts have on purpose; the quarters
      themselves are tiled with the 20 px gap. */
  lemma FiveCollageOverlay(c: Size)
    requires Roomy(c)
    ensures var L := Layout(FiveCollage, c);
      && |L| == 6 && L[4].Panel? && L[5].Photo? && L[5].index == 4
      && Tiled(L[..4], 20)
      && L[5].at.w == SevenTenths((c.width - 20) / 2) && L[5].at.h == SevenTenths((c.height - 20) / 2)
      && L[5].at.x == L[4].at.x + 8 && L[5].at.y == L[4].at.y + 8
      && Right(L[4].at) == Right(L[5].at) + 8 && Bottom(L[4].at) == Bottom(L[5].at) + 8
      && L[4].at.x <= c.width - Right(L[4].at) <= L[4].at.x + 1
      && L[4].at.y <= c.height - Bottom(L[4].at) <= L[4].at.y + 1
      && forall i :: 0 <= i < 4 ==> !Disjoint(L[4].at, L[i].at)
  {
    var L := Layout(FiveCollage, c);
    var q, o := Quarters(c), Overlay(c);
    assert L[..4] == q && L[4] == o[0] && L[5] == o[1];
    QuartersFit(c);
    OverlayFramed(c);
    OverlayCrossesQuarters(c);
  }

  /** Photo 4 sits 8 px inside the panel, which is centred to within a pixel. */
  lemma OverlayFramed(c: Size)
    requires Roomy(c)
    ensures var o := Overlay(c);
      && o[0].Panel? && o[1].Photo? && o[1].index == 4
      && o[1].at.w == SevenTenths((c.width - 20) / 2) && o[1].at.h == SevenTenths((c.height - 20) / 2)
      && o[1].at.x == o[0].at.x + 8 && o[1].at.y == o[0].at.y + 8
      && Right(o[0].at) == Right(o[1].at) + 8 && Bottom(o[0].at) == Bottom(o[1].at) + 8
      && o[0].at.x <= c.width - Right(o[0].at) <= o[0].at.x + 1
      && o[0].at.y <= c.height - Bottom(o[0].at) <= o[0].at.y + 1
  {
  }

  /** The panel overlaps every quarter. */
  lemma OverlayCrossesQuarters(c: Size)
    requires Roomy(c)
    ensures forall i :: 0 <= i < 4 ==> !Disjoint(Overlay(c)[0].at, Quarters(c)[i].at)
  {
  }

  /** The doubles' `int(x * 0.7)` at the XL quarter width: 937, not 938. */
  lemma SevenTenthsOf1340()
    ensures SevenTenths(1340) == 937
  {
    assert HighestPowerOfTwo(1) == 1;
    assert HighestPowerOfTwo(3) == 2;
    assert HighestPowerOfTwo(7) == 4;
    assert HighestPowerOfTwo(14) == 8;
    assert HighestPowerOfTwo(29) == 16;
    assert HighestPowerOfTwo(58) == 32;
    assert HighestPowerOfTwo(117) == 64;
    assert HighestPowerOfTwo(234) == 128;
    assert HighestPowerOfTwo(469) == 256;
    assert HighestPowerOfTwo(938) == 512;
    assert 7 * 1340 / 10 == 938 && 1340 % 10 == 0;
  }

  /** At the XL quarter height and the regular quarter width, 890, the
      product rounds to the exact 623. */
  lemma SevenTenthsOf890()
    ensures SevenTenths(890) == 623
  {
    assert HighestPowerOfTwo(1) == 1;
    assert HighestPowerOfTwo(2) == 2;
    assert HighestPowerOfTwo(4) == 4;
    assert HighestPowerOfTwo(9) == 8;
    assert HighestPowerOfTwo(19) == 16;
    assert HighestPowerOfTwo(38) == 32;
    assert HighestPowerOfTwo(77) == 64;
    assert HighestPowerOfTwo(155) == 128;
    assert HighestPowerOfTwo(311) == 256;
    assert HighestPowerOfTwo(623) == 512;
    assert 7 * 890 / 10 == 623 && 890 % 10 == 0;
  }

  /** At the regular quarter height, 590, it is the exact 413. */
  lemma SevenTenthsOf590()
    ensures SevenTenths(590) == 413
  {
    assert HighestPowerOfTwo(1) == 1;
    assert HighestPowerOfTwo(3) == 2;
    assert HighestPowerOfTwo(6) == 4;
    assert HighestPowerOfTwo(12) == 8;
    assert HighestPowerOfTwo(25) == 16;
    assert HighestPowerOfTwo(51) == 32;
    assert HighestPowerOfTwo(103) == 64;
    assert HighestPowerOfTwo(206) == 128;
    assert HighestPowerOfTwo(413) == 256;
    assert 7 * 590 / 10 == 413 && 590 % 10 == 0;
  }

  /** On the XL canvas the overlay photo is 937 px wide, one pixel short of
      the exact 0.7 of a 1340 px quarter. */
  lemma FiveCollageOnXL()
    ensures Overlay(XLSize) == [Panel(Rect(873, 580, 953, 639)), Photo(4, Rect(881, 588, 937, 623))]
  {
    assert (XLSize.width - 20) / 2 == 1340 && (XLSize.height - 20) / 2 == 890;
    SevenTenthsOf1340();
    SevenTenthsOf890();
  }

  lemma FiveCollageOnRegular()
    ensures Overlay(RegularSize) == [Panel(Rect(580, 385, 639, 429)), Photo(4, Rect(588, 393, 623, 413))]
  {
    assert (RegularSize.width - 20) / 2 == 890 && (RegularSize.height - 20) / 2 == 590;
    SevenTenthsOf890();
    SevenTenthsOf590();
  }

  /** three_sideways: the top photo takes 40% of the height and the bottom
      row ends exactly on the bottom edge of the canvas. */
  lemma ThreeSidewaysReachesBottom(c: Size)
    requires Roomy(c)
    ensures var L := Layout(ThreeSideways, c);
      && 5 * L[0].at.h <= 2 * c.height < 5 * (L[0].at.h + 1)
      && Bottom(L[1].at) == c.height && Bottom(L[2].at) == c.height
      && L[1].at.y == Bottom(L[0].at) + 15
  {
  }
}

=== FILE: requests.dfy ===
/** The request records the generation service receives, with the field
    names of its pydantic models. `Optional[...]` fields are `Option`s:
    the client may send `null` for them. */
module Requests {
  import opened Results

  datatype Recipient = Recipient(
    to: string,
    addressLine1: string,
    addressLine2: Option<string>,
    city: Option<string>,
    state: Option<string>,
    zipcode: Option<string>)

  datatype PostcardRequest = PostcardRequest(
    message: string,
    recipientInfo: Recipient,
    postcardSize: string,
    returnAddressText: string,
    transactionId: string,
    frontImageUri: Option<string>,
    frontImageUris: Option<seq<string>>,
    templateType: Option<string>,
    userEmail: Option<string>)

  /** Python truthiness of an optional string: present and non-empty. */
  predicate Given(s: Option<string>) {
    s.Some? && s.value != ""
  }

  /** `str(x)` as an f-string renders it: `None` prints as "None". */
  function Show(s: Option<string>): (r: string)
    ensures s.Some? ==> r == s.value
    ensures s.None? ==> r == "None"
  {
    match s
    case None => "None"
    case Some(v) => v
  }
}

=== FILE: results.dfy ===
/** Failure-carrying values used across the model: Python's `None` and raised
    exceptions become explicit alternatives of these datatypes. */
module Results {

  /** A value that may be absent (`None` in the service's Python). */
  datatype Option<+T> = None | Some(value: T)

  /** The outcome of an operation that either returns a value or raises. */
  datatype Result<+T, +E> = Ok(value: T) | Err(error: E)
}

=== FILE: text.dfy ===
/** The Python string primitives the layout code is built on: `str.isspace`,
    `str.strip`, `str.split()` (split on whitespace), `str.split(sep)` and
    `sep.join(parts)`. Strings are sequences of code points. */
module Text {

  /** Python's `str.isspace()` for one code point: the ASCII controls
      TAB..CR, the separators 0x1C..0x1F, SPACE, NEL, NBSP and the Unicode
      space separators. */
  predicate IsSpace(c: char) {
    ('\t' <= c <= '\r') || ('\U{1C}' <= c <= ' ') || c == '\U{85}' || c == '\U{A0}'
    || c == '\U{1680}' || ('\U{2000}' <= c <= '\U{200A}') || c == '\U{2028}'
    || c == '\U{2029}' || c == '\U{202F}' || c == '\U{205F}' || c == '\U{3000}'
  }

  /** True when `s` holds nothing but whitespace (the empty string included). */
  predicate AllSpace(s: string) {
    forall i :: 0 <= i < |s| ==> IsSpace(s[i])
  }

  /** A word as `str.split()` yields it: non-empty, without whitespace. */
  predicate IsWord(w: string) {
    |w| > 0 && forall i :: 0 <= i < |w| ==> !IsSpace(w[i])
  }

  // ---------------------------------------------------------------------------
  // strip
  // ---------------------------------------------------------------------------

  /** The length of the run of characters satisfying `drop` at the front of `s`. */
  function LeadingCount(s: string, drop: char -> bool): (k: nat)
    ensures k <= |s|
    ensures forall i :: 0 <= i < k ==> drop(s[i])
    ensures k == |s| || !drop(s[k])
  {
    if |s| == 0 || !drop(s[0]) then 0 else 1 + LeadingCount(s[1..], drop)
  }

  /** The length of the run of characters satisfying `drop` at the back of `s`. */
  function TrailingCount(s: string, drop: char -> bool): (k: nat)
    ensures k <= |s|
    ensures forall i :: |s| - k <= i < |s| ==> drop(s[i])
    ensures k == |s| || !drop(s[|s| - k - 1])
  {
    if |s| == 0 || !drop(s[|s| - 1]) then 0 else 1 + TrailingCount(s[..|s| - 1], drop)
  }

  /** Python's `s.strip(chars)`, where `drop` recognises the characters in
      `chars`: the slice of `s` left after removing both runs. */
  function Trim(s: string, drop: char -> bool): (r: string)
    ensures |r| <= |s|
    ensures r == [] <==> forall i :: 0 <= i < |s| ==> drop(s[i])
    ensures r != [] ==> !drop(r[0]) && !drop(r[|r| - 1])
    ensures LeadingCount(s, drop) + |r| <= |s|
    ensures r == s[LeadingCount(s, drop)..LeadingCount(s, drop) + |r|]
    ensures (|s| == 0 || (!drop(s[0]) && !drop(s[|s| - 1]))) ==> r == s
  {
    var lead := LeadingCount(s, drop);
    var t := s[lead..];
    var trail := TrailingCount(t, drop);
    assert lead < |s| ==> |t| > 0 && !drop(t[0]);
    assert lead < |s| ==> trail < |t|;
    t[..|t| - trail]
  }

  /** What `strip` removes at the back is a run of dropped characters. */
  lemma TrimTail(s: string, drop: char -> bool)
    ensures forall i :: LeadingCount(s, drop) + |Trim(s, drop)| <= i < |s| ==> drop(s[i])
  {
    var lead := LeadingCount(s, drop);
    var t := s[lead..];
    var trail := TrailingCount(t, drop);
    forall i | lead + |Trim(s, drop)| <= i < |s| ensures drop(s[i]) {
      assert s[i] == t[i - lead];
    }
  }

  /** `strip` is the only way to cut `s` into a run of dropped characters, a
      middle that neither starts nor ends with one, and another such run. */
  lemma TrimUnique(s: string, drop: char -> bool, a: nat, r: string)
    requires a + |r| <= |s| && r == s[a..a + |r|]
    requires forall i :: 0 <= i < a ==> drop(s[i])
    requires forall i :: a + |r| <= i < |s| ==> drop(s[i])
    requires r != [] ==> !drop(r[0]) && !drop(r[|r| - 1])
    ensures r == Trim(s, drop)
  {
    var t := Trim(s, drop);
    TrimTail(s, drop);
    if r == [] {
      forall i | 0 <= i < |s| ensures drop(s[i]) {
        if i >= a { assert a + |r| <= i; }
      }
    } else {
      assert s[a] == r[0];
      assert LeadingCount(s, drop) == a;
      assert s[a + |r| - 1] == r[|r| - 1];
      assert |r| <= |t|;
      assert s[a + |t| - 1] == t[|t| - 1];
      assert |t| <= |r|;
    }
  }

  /** Python's `s.strip()` with no argument: trims whitespace at both ends. */
  function Strip(s: string): string {
    Trim(s, IsSpace)
  }

  /** `s.strip()` is empty exactly when `s` is blank. */
  lemma StripEmptyIffBlank(s: string)
    ensures Strip(s) == [] <==> AllSpace(s)
  {
  }

  // ---------------------------------------------------------------------------
  // split() on whitespace
  // ---------------------------------------------------------------------------

  /** Where the trailing run of non-whitespace characters of `s` begins;
      `|s|` when `s` ends in whitespace or is empty. */
  function WordStart(s: string): (k: nat)
    ensures k <= |s|
    ensures k == 0 || IsSpace(s[k - 1])
    decreases |s|
  {
    if |s| == 0 || IsSpace(s[|s| - 1]) then |s| else WordStart(s[..|s| - 1])
  }

  /** Everything from `WordStart(s)` on is non-whitespace. */
  lemma {:induction false} WordStartRun(s: string)
    ensures forall i :: WordStart(s) <= i < |s| ==> !IsSpace(s[i])
    decreases |s|
  {
    if |s| > 0 && !IsSpace(s[|s| - 1]) {
      WordStartRun(s[..|s| - 1]);
    }
  }

  /** Python's `s.split()`: the maximal runs of non-whitespace characters, in
      order. Defined from the right so that appending a word is one step. */
  function Words(s: string): seq<string>
    decreases |s|
  {
    if |s| == 0 then []
    else if IsSpace(s[|s| - 1]) then Words(s[..|s| - 1])
    else
      var k := WordStart(s);
      Words(s[..k]) + [s[k..]]
  }

  /** Every piece `split()` yields is a word. */
  lemma {:induction false} WordsAreWords(s: string)
    ensures forall i :: 0 <= i < |Words(s)| ==> IsWord(Words(s)[i])
    decreases |s|
  {
    if |s| > 0 {
      if IsSpace(s[|s| - 1]) {
        WordsAreWords(s[..|s| - 1]);
      } else {
        var k := WordStart(s);
        WordsAreWords(s[..k]);
        WordStartRun(s);
        assert IsWord(s[k..]);
      }
    }
  }

  /** The characters of `s` that are not whitespace, in order. */
  function NonSpace(s: string): string
    decreases |s|
  {
    if |s| == 0 then []
    else if IsSpace(s[|s| - 1]) then NonSpace(s[..|s| - 1])
    else NonSpace(s[..|s| - 1]) + [s[|s| - 1]]
  }

  /** The concatenation of a list of strings (`"".join(parts)`). */
  function Concat(parts: seq<string>): string
    decreases |parts|
  {
    if |parts| == 0 then [] else Concat(parts[..|parts| - 1]) + parts[|parts| - 1]
  }

  lemma {:induction false} NonSpaceAppend(a: string, b: string)
    ensures NonSpace(a + b) == NonSpace(a) + NonSpace(b)
    decreases |b|
  {
    if |b| == 0 {
      assert a + b == a;
    } else {
      assert (a + b)[..|a + b| - 1] == a + b[..|b| - 1];
      NonSpaceAppend(a, b[..|b| - 1]);
    }
  }

  lemma {:induction false} NonSpaceOfWord(w: string)
    requires forall i :: 0 <= i < |w| ==> !IsSpace(w[i])
    ensures NonSpace(w) == w
    decreases |w|
  {
    if |w| > 0 {
      NonSpaceOfWord(w[..|w| - 1]);
      assert w[..|w| - 1] + [w[|w| - 1]] == w;
    }
  }

  /** `split()` loses only whitespace: gluing the words back together gives
      exactly the non-whitespace characters of the input, in order. */
  lemma {:induction false} WordsKeepLetters(s: string)
    ensures Concat(Words(s)) == NonSpace(s)
    decreases |s|
  {
    if |s| == 0 {
    } else if IsSpace(s[|s| - 1]) {
      WordsKeepLetters(s[..|s| - 1]);
    } else {
      var k := WordStart(s);
      WordsKeepLetters(s[..k]);
      var ws := Words(s[..k]) + [s[k..]];
      assert ws[..|ws| - 1] == Words(s[..k]);
      NonSpaceAppend(s[..k], s[k..]);
      WordStartRun(s);
      NonSpaceOfWord(s[k..]);
      assert s[..k] + s[k..] == s;
    }
  }

  /** A string has no words exactly when it is blank. */
  lemma {:induction false} WordsEmptyIffBlank(s: string)
    ensures Words(s) == [] <==> AllSpace(s)
    decreases |s|
  {
    if |s| > 0 {
      WordsEmptyIffBlank(s[..|s| - 1]);
      if IsSpace(s[|s| - 1]) {
        assert AllSpace(s) <==> AllSpace(s[..|s| - 1]);
      } else {
        assert !AllSpace(s);
      }
    }
  }

  lemma {:induction false} WordStartOfWord(w: string)
    requires forall i :: 0 <= i < |w| ==> !IsSpace(w[i])
    ensures WordStart(w) == 0
    decreases |w|
  {
    if |w| > 0 {
      WordStartOfWord(w[..|w| - 1]);
    }
  }

  /** A single word splits to itself. */
  lemma WordsOfWord(w: string)
    requires IsWord(w)
    ensures Words(w) == [w]
  {
    WordStartOfWord(w);
    assert w[..0] == [];
    assert w[0..] == w;
  }

  lemma {:induction false} WordStartShift(p: string, b: string)
    requires |p| > 0 && IsSpace(p[|p| - 1])
    ensures WordStart(p + b) == |p| + WordStart(b)
    decreases |b|
  {
    if |b| == 0 {
      assert p + b == p;
    } else if !IsSpace(b[|b| - 1]) {
      assert (p + b)[..|p + b| - 1] == p + b[..|b| - 1];
      WordStartShift(p, b[..|b| - 1]);
    }
  }

  /** A whitespace character separates words: splitting around it is the same
      as splitting each side. */
  lemma {:induction false} WordsSplitAtSpace(a: string, c: char, b: string)
    requires IsSpace(c)
    ensures Words(a + [c] + b) == Words(a) + Words(b)
    decreases |b|
  {
    var s := a + [c] + b;
    if |b| == 0 {
      assert s[..|s| - 1] == a;
    } else if IsSpace(b[|b| - 1]) {
      var b' := b[..|b| - 1];
      assert s[..|s| - 1] == a + [c] + b';
      WordsSplitAtSpace(a, c, b');
    } else {
      var kb := WordStart(b);
      WordsSplitAtSpace(a, c, b[..kb]);
      PeelTrailingWord(a, c, b);
      WordsOfTrailingWord(b);
      Reassociate(Words(a), Words(b[..kb]), [b[kb..]]);
    }
  }

  lemma Reassociate(x: seq<string>, y: seq<string>, z: seq<string>)
    ensures (x + y) + z == x + (y + z)
  {
  }

  /** When `b` ends in a word, so does `a + [c] + b`, and it is the same word. */
  lemma PeelTrailingWord(a: string, c: char, b: string)
    requires IsSpace(c) && |b| > 0 && !IsSpace(b[|b| - 1])
    ensures Words(a + [c] + b) == Words(a + [c] + b[..WordStart(b)]) + [b[WordStart(b)..]]
  {
    var p := a + [c];
    WordStartShift(p, b);
    PeelAt(p, b, WordStart(b));
  }

  lemma PeelAt(p: string, b: string, kb: nat)
    requires |b| > 0 && !IsSpace(b[|b| - 1]) && kb < |b|
    requires WordStart(p + b) == |p| + kb
    ensures Words(p + b) == Words(p + b[..kb]) + [b[kb..]]
  {
    SliceAround(p, b, kb);
    WordsAt(p + b, |p| + kb, p + b[..kb], b[kb..]);
  }

  /** `Words` peeled at a known start of the trailing word. */
  lemma WordsAt(s: string, k: nat, before: string, word: string)
    requires |s| > 0 && !IsSpace(s[|s| - 1]) && k == WordStart(s)
    requires s[..k] == before && s[k..] == word
    ensures Words(s) == Words(before) + [word]
  {
  }

  lemma SliceAround(p: string, b: string, k: nat)
    requires k < |b|
    ensures (p + b)[..|p| + k] == p + b[..k]
    ensures (p + b)[|p| + k..] == b[k..]
    ensures (p + b)[|p + b| - 1] == b[|b| - 1]
  {
  }

  /** A string ending in a word: its words are those before the word, then the word. */
  lemma WordsOfTrailingWord(s: string)
    requires |s| > 0 && !IsSpace(s[|s| - 1])
    ensures Words(s) == Words(s[..WordStart(s)]) + [s[WordStart(s)..]]
  {
  }

  // ---------------------------------------------------------------------------
  // join and split(sep)
  // ---------------------------------------------------------------------------

  /** Python's `sep.join(parts)` for a one-character separator. */
  function Join(parts: seq<string>, sep: char): string
    decreases |parts|
  {
    if |parts| == 0 then ""
    else if |parts| == 1 then parts[0]
    else Join(parts[..|parts| - 1], sep) + [sep] + parts[|parts| - 1]
  }

  /** Joining words with single spaces and splitting on whitespace again gives
      back the same words. */
  lemma {:induction false} WordsOfJoin(ws: seq<string>)
    requires forall i :: 0 <= i < |ws| ==> IsWord(ws[i])
    ensures Words(Join(ws, ' ')) == ws
    decreases |ws|
  {
    if |ws| == 1 {
      WordsOfWord(ws[0]);
    } else if |ws| > 1 {
      var (init, last) := (ws[..|ws| - 1], ws[|ws| - 1]);
      assert forall i :: 0 <= i < |init| ==> init[i] == ws[i];
      WordsOfJoin(init);
      WordsOfWord(last);
      assert Join(ws, ' ') == Join(init, ' ') + [' '] + last;
      WordsSplitAtSpace(Join(init, ' '), ' ', last);
      assert init + [last] == ws;
    }
  }

  /** Python's `s.split(sep)` for a one-character separator: the pieces between
      separators, so there is always at least one (possibly empty) segment. */
  function SplitOn(s: string, sep: char): (segs: seq<string>)
    ensures |segs| >= 1
    decreases |s|
  {
    if |s| == 0 then [""]
    else
      var init := SplitOn(s[..|s| - 1], sep);
      var c := s[|s| - 1];
      if c == sep then init + [""]
      else init[..|init| - 1] + [init[|init| - 1] + [c]]
  }

  /** Joining the segments with the separator restores the input. */
  lemma {:induction false} JoinSplitOn(s: string, sep: char)
    ensures Join(SplitOn(s, sep), sep) == s
    decreases |s|
  {
    if |s| > 0 {
      var s' := s[..|s| - 1];
      var init := SplitOn(s', sep);
      JoinSplitOn(s', sep);
      var c := s[|s| - 1];
      assert s' + [c] == s;
      if c == sep {
        JoinSnoc(init, "", sep);
      } else {
        JoinExtendLast(init, c, sep);
      }
    }
  }

  lemma JoinSnoc(parts: seq<string>, last: string, sep: char)
    requires |parts| >= 1
    ensures Join(parts + [last], sep) == Join(parts, sep) + [sep] + last
  {
    assert (parts + [last])[..|parts|] == parts;
  }

  lemma JoinExtendLast(parts: seq<string>, c: char, sep: char)
    requires |parts| >= 1
    ensures Join(parts[..|parts| - 1] + [parts[|parts| - 1] + [c]], sep) == Join(parts, sep) + [c]
  {
    var init := parts[..|parts| - 1];
    var q := init + [parts[|parts| - 1] + [c]];
    if |parts| > 1 {
      assert q[..|q| - 1] == init;
    }
  }

  /** A string without the separator is a single segment. */
  lemma {:induction false} SplitOnWithoutSep(x: string, sep: char)
    requires sep !in x
    ensures SplitOn(x, sep) == [x]
    decreases |x|
  {
    if |x| > 0 {
      SplitOnWithoutSep(x[..|x| - 1], sep);
      assert x[..|x| - 1] + [x[|x| - 1]] == x;
    }
  }

  /** A separator cuts the input into two independently split halves. */
  lemma {:induction false} SplitOnAppend(a: string, sep: char, b: string)
    ensures SplitOn(a + [sep] + b, sep) == SplitOn(a, sep) + SplitOn(b, sep)
    decreases |b|
  {
    var s := a + [sep] + b;
    if |b| == 0 {
      assert s[..|s| - 1] == a && s[|s| - 1] == sep;
      assert SplitOn(s, sep) == SplitOn(a, sep) + [""];
      assert SplitOn(b, sep) == [""];
    } else {
      var b' := b[..|b| - 1];
      var c := b[|b| - 1];
      assert s[..|s| - 1] == a + [sep] + b' && s[|s| - 1] == c;
      var x, y := SplitOn(a, sep), SplitOn(b', sep);
      assert SplitOn(a + [sep] + b', sep) == x + y by {
        SplitOnAppend(a, sep, b');
      }
      if c == sep {
        assert SplitOn(s, sep) == (x + y) + [""];
        assert SplitOn(b, sep) == y + [""];
      } else {
        var xy := x + y;
        assert SplitOn(s, sep) == xy[..|xy| - 1] + [xy[|xy| - 1] + [c]];
        assert SplitOn(b, sep) == y[..|y| - 1] + [y[|y| - 1] + [c]];
        ExtendLastAppend(x, y, c);
      }
    }
  }

  /** Extending the last segment of `x + y` extends the last segment of `y`. */
  lemma ExtendLastAppend(x: seq<string>, y: seq<string>, c: char)
    requires |y| >= 1
    ensures var xy := x + y;
      xy[..|xy| - 1] + [xy[|xy| - 1] + [c]] == x + (y[..|y| - 1] + [y[|y| - 1] + [c]])
  {
    var xy := x + y;
    assert xy[..|xy| - 1] == x + y[..|y| - 1];
  }

  /** Splitting the joined segments gives the segments back, as long as none
      of them contains the separator. */
  lemma {:induction false} SplitOnJoin(segs: seq<string>, sep: char)
    requires |segs| >= 1
    requires forall i :: 0 <= i < |segs| ==> sep !in segs[i]
    ensures SplitOn(Join(segs, sep), sep) == segs
    decreases |segs|
  {
    var last := segs[|segs| - 1];
    assert sep !in last;
    SplitOnWithoutSep(last, sep);
    if |segs| > 1 {
      var init := segs[..|segs| - 1];
      assert forall i :: 0 <= i < |init| ==> init[i] == segs[i];
      SplitOnJoin(init, sep);
      assert Join(segs, sep) == Join(init, sep) + [sep] + last;
      SplitOnAppend(Join(init, sep), sep, last);
      assert init + [last] == segs;
    }
  }

  /** Python's `s.startswith(prefix)`. */
  predicate StartsWith(s: string, prefix: string) {
    |prefix| <= |s| && s[..|prefix|] == prefix
  }
}

=== FILE: wrap.dfy ===
/** The back-face message word-wrap (`process_message_with_line_breaks`): the
    message is split on user line breaks, a blank segment becomes one empty
    line, and every other segment is wrapped greedily on whitespace against a
    caller-supplied width measure, never splitting a word. */
module Wrap {
  import opened Text

  // ---------------------------------------------------------------------------
  // The algorithm
  // ---------------------------------------------------------------------------

  /** One iteration of the loop of `process_message_with_line_breaks` for
      `word`: `lines` are the lines already emitted and `current` the line
      being filled (`""` before the first word). The word is tried against
      the current line; when the measured trial line is too wide the current
      line is emitted and the word starts the next one. */
  function Step(word: string, lines: seq<string>, current: string,
                maxWidth: int, width: string -> nat): (seq<string>, string)
  {
    var test := if current != "" then Strip(current + " " + word) else word;
    if width(test) <= maxWidth then (lines, test)
    else (if current != "" then lines + [current] else lines, word)
  }

  /** The greedy loop over the words of one segment. */
  function Greedy(words: seq<string>, lines: seq<string>, current: string,
                  maxWidth: int, width: string -> nat): (seq<string>, string)
    decreases |words|
  {
    if |words| == 0 then (lines, current)
    else
      var (lines', current') := Step(words[0], lines, current, maxWidth, width);
      Greedy(words[1..], lines', current', maxWidth, width)
  }

  /** The same loop with the trial line built without `strip()`; the
      `strip()` the source applies never changes a line built from words
      (`GreedyIsPlain`), so the invariant is proved about this form. */
  function PlainStep(word: string, lines: seq<string>, current: string,
                     maxWidth: int, width: string -> nat): (seq<string>, string)
  {
    var test := if current != "" then current + " " + word else word;
    if width(test) <= maxWidth then (lines, test)
    else (if current != "" then lines + [current] else lines, word)
  }

  function PlainGreedy(words: seq<string>, lines: seq<string>, current: string,
                       maxWidth: int, width: string -> nat): (seq<string>, string)
    decreases |words|
  {
    if |words| == 0 then (lines, current)
    else
      var (lines', current') := PlainStep(words[0], lines, current, maxWidth, width);
      PlainGreedy(words[1..], lines', current', maxWidth, width)
  }

  /** The lines a loop state stands for once a non-empty pending line is emitted. */
  function Flush(lines: seq<string>, current: string): seq<string> {
    if current != "" then lines + [current] else lines
  }

  /** The lines produced for one user line (one `'\n'` segment). */
  function WrapSegment(segment: string, maxWidth: int, width: string -> nat): seq<string> {
    if Strip(segment) == "" then [""]
    else
      var (lines, current) := Greedy(Words(segment), [], "", maxWidth, width);
      Flush(lines, current)
  }

  /** `WrapSegment` with the limit and the measure fixed. */
  function Segmenter(maxWidth: int, width: string -> nat): string -> seq<string> {
    segment => WrapSegment(segment, maxWidth, width)
  }

  /** Applies `f` to every element and concatenates the results, in order. */
  function FlatMap(f: string -> seq<string>, xs: seq<string>): seq<string>
    decreases |xs|
  {
    if |xs| == 0 then [] else FlatMap(f, xs[..|xs| - 1]) + f(xs[|xs| - 1])
  }

  /** `process_message_with_line_breaks(message, max_width, font, draw)`, with
      the font and the drawing context folded into the `width` measure: each
      `'\n'` segment is wrapped on its own and the results are concatenated. */
  function WrapMessage(message: string, maxWidth: int, width: string -> nat): seq<string> {
    FlatMap(Segmenter(maxWidth, width), SplitOn(message, '\n'))
  }

  // ---------------------------------------------------------------------------
  // What a wrapped segment looks like
  // ---------------------------------------------------------------------------

  /** A line as the greedy loop builds it: one or more words joined by single spaces. */
  predicate IsLine(l: string) {
    Words(l) != [] && l == Join(Words(l), ' ')
  }

  /** All the words of a list of lines, in order. */
  function WordsOf(lines: seq<string>): seq<string>
    decreases |lines|
  {
    if |lines| == 0 then [] else WordsOf(lines[..|lines| - 1]) + Words(lines[|lines| - 1])
  }

  /** The first word of a line (`""` for a blank line). */
  function FirstWord(line: string): string {
    var ws := Words(line);
    if ws == [] then "" else ws[0]
  }

  /** Every line is a proper word line. */
  predicate AllLines(lines: seq<string>) {
    forall i {:trigger IsLine(lines[i])} :: 0 <= i < |lines| ==> IsLine(lines[i])
  }

  /** A line wider than the limit holds a single word: over-wide words are
      placed alone and never split. */
  predicate LoneWhenOverWide(lines: seq<string>, maxWidth: int, width: string -> nat) {
    forall i {:trigger Lone(lines[i], maxWidth, width)} :: 0 <= i < |lines| ==> Lone(lines[i], maxWidth, width)
  }

  /** A line is within the limit or holds a single word. */
  predicate Lone(line: string, maxWidth: int, width: string -> nat) {
    width(line) > maxWidth ==> |Words(line)| == 1
  }

  /** Whether the first word of `next` would still fit on `line`. */
  predicate Fits(line: string, next: string, maxWidth: int, width: string -> nat) {
    width(line + " " + FirstWord(next)) <= maxWidth
  }

  /** Greedy maximality: no line could have taken the next line's first word. */
  ghost predicate Maximal(lines: seq<string>, maxWidth: int, width: string -> nat) {
    forall i, j {:trigger Fits(lines[i], lines[j], maxWidth, width)} ::
      0 <= i < j < |lines| && j == i + 1 ==> !Fits(lines[i], lines[j], maxWidth, width)
  }

  ghost predicate Packed(lines: seq<string>, maxWidth: int, width: string -> nat) {
    AllLines(lines) && LoneWhenOverWide(lines, maxWidth, width) && Maximal(lines, maxWidth, width)
  }

  // ---------------------------------------------------------------------------
  // The loop invariant, one step at a time
  // ---------------------------------------------------------------------------

  lemma {:induction false} JoinEnds(ws: seq<string>)
    requires |ws| > 0 && forall i :: 0 <= i < |ws| ==> IsWord(ws[i])
    ensures |ws[0]| > 0 && |ws[|ws| - 1]| > 0
    ensures |Join(ws, ' ')| > 0
    ensures Join(ws, ' ')[0] == ws[0][0]
    ensures Join(ws, ' ')[|Join(ws, ' ')| - 1] == ws[|ws| - 1][|ws[|ws| - 1]| - 1]
    decreases |ws|
  {
    if |ws| > 1 {
      JoinEnds(ws[..|ws| - 1]);
    }
  }

  /** Extending a line with a word never needs the `strip()` the source applies. */
  lemma StripOfExtended(line: string, word: string)
    requires IsLine(line) && IsWord(word)
    ensures Strip(line + " " + word) == line + " " + word
  {
    WordsAreWords(line);
    JoinEnds(Words(line));
    var t := line + " " + word;
    assert t[0] == line[0];
    assert t[|t| - 1] == word[|word| - 1];
  }

  lemma WordsOfExtended(line: string, word: string)
    requires IsLine(line) && IsWord(word)
    ensures Words(line + " " + word) == Words(line) + [word]
    ensures FirstWord(line + " " + word) == FirstWord(line)
    ensures IsLine(line + " " + word)
  {
    WordsSplitAtSpace(line, ' ', word);
    WordsOfWord(word);
    assert line + " " + word == line + [' '] + word;
    var ws := Words(line) + [word];
    assert ws[..|ws| - 1] == Words(line);
  }

  lemma WordsOfSnoc(lines: seq<string>, line: string)
    ensures WordsOf(lines + [line]) == WordsOf(lines) + Words(line)
  {
    assert (lines + [line])[..|lines|] == lines;
  }

  lemma StartLine(word: string, maxWidth: int, width: string -> nat)
    requires IsWord(word)
    ensures Packed([word], maxWidth, width)
    ensures WordsOf([word]) == [word]
  {
    WordsOfWord(word);
    WordsOfSnoc([], word);
  }

  lemma ExtendLine(lines: seq<string>, word: string, maxWidth: int, width: string -> nat)
    requires Packed(lines, maxWidth, width) && |lines| > 0 && IsWord(word)
    requires width(lines[|lines| - 1] + " " + word) <= maxWidth
    ensures Packed(lines[..|lines| - 1] + [lines[|lines| - 1] + " " + word], maxWidth, width)
    ensures WordsOf(lines[..|lines| - 1] + [lines[|lines| - 1] + " " + word]) == WordsOf(lines) + [word]
  {
    var n := |lines|;
    var last := lines[n - 1];
    assert IsLine(last);
    WordsOfExtended(last, word);
    ExtendLineShape(lines, last + " " + word, maxWidth, width);
    ExtendLineMaximal(lines, word, maxWidth, width);
    ExtendLineWords(lines, word);
  }

  lemma ExtendLineWords(lines: seq<string>, word: string)
    requires |lines| > 0
    requires Words(lines[|lines| - 1] + " " + word) == Words(lines[|lines| - 1]) + [word]
    ensures WordsOf(lines[..|lines| - 1] + [lines[|lines| - 1] + " " + word]) == WordsOf(lines) + [word]
  {
    var n := |lines|;
    var last := lines[n - 1];
    WordsOfSnoc(lines[..n - 1], last + " " + word);
    WordsOfSnoc(lines[..n - 1], last);
    assert lines[..n - 1] + [last] == lines;
  }

  lemma ExtendLineShape(lines: seq<string>, ext: string, maxWidth: int, width: string -> nat)
    requires AllLines(lines) && LoneWhenOverWide(lines, maxWidth, width) && |lines| > 0
    requires IsLine(ext) && Lone(ext, maxWidth, width)
    ensures AllLines(lines[..|lines| - 1] + [ext])
    ensures LoneWhenOverWide(lines[..|lines| - 1] + [ext], maxWidth, width)
  {
    var r := lines[..|lines| - 1] + [ext];
    forall i | 0 <= i < |r|
      ensures IsLine(r[i]) && Lone(r[i], maxWidth, width)
    {
      if i < |lines| - 1 {
        assert r[i] == lines[i];
        assert IsLine(lines[i]) && Lone(lines[i], maxWidth, width);
      }
    }
  }

  lemma ExtendLineMaximal(lines: seq<string>, word: string, maxWidth: int, width: string -> nat)
    requires Maximal(lines, maxWidth, width) && |lines| > 0
    requires FirstWord(lines[|lines| - 1] + " " + word) == FirstWord(lines[|lines| - 1])
    ensures Maximal(lines[..|lines| - 1] + [lines[|lines| - 1] + " " + word], maxWidth, width)
  {
    var n := |lines|;
    var last := lines[n - 1];
    var r := lines[..n - 1] + [last + " " + word];
    forall i, j | 0 <= i < j < |r| && j == i + 1
      ensures !Fits(r[i], r[j], maxWidth, width)
    {
      assert r[i] == lines[i];
      if j < n - 1 {
        assert r[j] == lines[j];
        assert !Fits(lines[i], lines[j], maxWidth, width);
      } else {
        assert !Fits(lines[i], last, maxWidth, width);
      }
    }
  }

  lemma NewLine(lines: seq<string>, word: string, maxWidth: int, width: string -> nat)
    requires Packed(lines, maxWidth, width) && |lines| > 0 && IsWord(word)
    requires width(lines[|lines| - 1] + " " + word) > maxWidth
    ensures Packed(lines + [word], maxWidth, width)
    ensures WordsOf(lines + [word]) == WordsOf(lines) + [word]
  {
    NewLinePacked(lines, word, maxWidth, width);
    WordsOfSnoc(lines, word);
  }

  lemma NewLinePacked(lines: seq<string>, word: string, maxWidth: int, width: string -> nat)
    requires Packed(lines, maxWidth, width) && |lines| > 0 && IsWord(word)
    requires width(lines[|lines| - 1] + " " + word) > maxWidth
    ensures Packed(lines + [word], maxWidth, width)
  {
    WordsOfWord(word);
    assert FirstWord(word) == word;
    var r := lines + [word];
    forall i, j | 0 <= i < j < |r| && j == i + 1
      ensures !Fits(r[i], r[j], maxWidth, width)
    {
      if j < |lines| {
        assert r[i] == lines[i] && r[j] == lines[j];
        assert !Fits(lines[i], lines[j], maxWidth, width);
      }
    }
  }

  /** One iteration keeps the loop invariant: the lines stay packed and a
      line is pending. */
  lemma StepPacks(word: string, lines: seq<string>, current: string, maxWidth: int, width: string -> nat)
    requires IsWord(word)
    requires current == "" ==> lines == []
    requires Packed(Flush(lines, current), maxWidth, width)
    ensures var (lines', current') := PlainStep(word, lines, current, maxWidth, width);
      current' != "" && Packed(Flush(lines', current'), maxWidth, width)
  {
    var L := Flush(lines, current);
    var r := PlainStep(word, lines, current, maxWidth, width);
    if current == "" {
      assert r == ([], word);
      assert Flush(r.0, r.1) == [word];
      StartLine(word, maxWidth, width);
    } else {
      assert L[..|L| - 1] == lines && L[|L| - 1] == current;
      assert IsLine(L[|L| - 1]);
      if width(current + " " + word) <= maxWidth {
        assert Flush(r.0, r.1) == L[..|L| - 1] + [L[|L| - 1] + " " + word];
        ExtendLine(L, word, maxWidth, width);
      } else {
        assert Flush(r.0, r.1) == L + [word];
        NewLine(L, word, maxWidth, width);
      }
    }
  }

  /** The loop invariant of the greedy wrap, carried over all remaining words. */
  lemma {:induction false} GreedyPacks(words: seq<string>, lines: seq<string>, current: string,
                                       maxWidth: int, width: string -> nat)
    requires forall i :: 0 <= i < |words| ==> IsWord(words[i])
    requires current == "" ==> lines == []
    requires Packed(Flush(lines, current), maxWidth, width)
    ensures var (lines', current') := PlainGreedy(words, lines, current, maxWidth, width);
      && (current' == "" ==> lines' == [])
      && Packed(Flush(lines', current'), maxWidth, width)
      && (|words| > 0 ==> current' != "")
    decreases |words|
  {
    if |words| > 0 {
      var r := PlainStep(words[0], lines, current, maxWidth, width);
      StepPacks(words[0], lines, current, maxWidth, width);
      GreedyPacks(words[1..], r.0, r.1, maxWidth, width);
    }
  }

  lemma ExtendWords(lines: seq<string>, current: string, word: string)
    requires IsWord(word)
    ensures WordsOf(lines + [current + " " + word]) == WordsOf(lines + [current]) + [word]
  {
    WordsSplitAtSpace(current, ' ', word);
    WordsOfWord(word);
    assert current + " " + word == current + [' '] + word;
    WordsOfSnoc(lines, current + " " + word);
    WordsOfSnoc(lines, current);
  }

  lemma PlaceWords(lines: seq<string>, word: string)
    requires IsWord(word)
    ensures WordsOf(lines + [word]) == WordsOf(lines) + [word]
  {
    WordsOfWord(word);
    WordsOfSnoc(lines, word);
  }

  /** One iteration appends its word to the words the lines hold. */
  lemma StepWords(word: string, lines: seq<string>, current: string, maxWidth: int, width: string -> nat)
    requires IsWord(word)
    ensures var (lines', current') := PlainStep(word, lines, current, maxWidth, width);
      WordsOf(Flush(lines', current')) == WordsOf(Flush(lines, current)) + [word]
  {
    var r := PlainStep(word, lines, current, maxWidth, width);
    if current == "" {
      assert Flush(r.0, r.1) == lines + [word];
      PlaceWords(lines, word);
    } else if width(current + " " + word) <= maxWidth {
      assert Flush(r.0, r.1) == lines + [current + " " + word];
      ExtendWords(lines, current, word);
    } else {
      assert Flush(r.0, r.1) == (lines + [current]) + [word];
      PlaceWords(lines + [current], word);
    }
  }

  /** Word preservation of the greedy loop: the words come out in order,
      none dropped or duplicated. */
  lemma {:induction false} GreedyWords(words: seq<string>, lines: seq<string>, current: string,
                                       maxWidth: int, width: string -> nat)
    requires forall i :: 0 <= i < |words| ==> IsWord(words[i])
    ensures var (lines', current') := PlainGreedy(words, lines, current, maxWidth, width);
      WordsOf(Flush(lines', current')) == WordsOf(Flush(lines, current)) + words
    decreases |words|
  {
    if |words| > 0 {
      var r := PlainStep(words[0], lines, current, maxWidth, width);
      StepWords(words[0], lines, current, maxWidth, width);
      GreedyWords(words[1..], r.0, r.1, maxWidth, width);
      PlainGreedyUnfold(words, lines, current, maxWidth, width);
      GlueWord(WordsOf(Flush(lines, current)), words);
    }
  }

  lemma PlainGreedyUnfold(words: seq<string>, lines: seq<string>, current: string,
                          maxWidth: int, width: string -> nat)
    requires |words| > 0
    ensures var r := PlainStep(words[0], lines, current, maxWidth, width);
      PlainGreedy(words, lines, current, maxWidth, width) == PlainGreedy(words[1..], r.0, r.1, maxWidth, width)
  {
  }

  lemma GlueWord(before: seq<string>, words: seq<string>)
    requires |words| > 0
    ensures (before + [words[0]]) + words[1..] == before + words
  {
    assert [words[0]] + words[1..] == words;
  }

  /** The source's `strip()` of the trial line is a no-op, and the pending
      line stays a proper word line. */
  lemma StepIsPlain(word: string, lines: seq<string>, current: string, maxWidth: int, width: string -> nat)
    requires IsWord(word)
    requires current == "" || IsLine(current)
    ensures Step(word, lines, current, maxWidth, width) == PlainStep(word, lines, current, maxWidth, width)
    ensures IsLine(PlainStep(word, lines, current, maxWidth, width).1)
  {
    if current != "" {
      StripOfExtended(current, word);
      WordsOfExtended(current, word);
    } else {
      WordsOfWord(word);
    }
  }

  lemma {:induction false} GreedyIsPlain(words: seq<string>, lines: seq<string>, current: string,
                                         maxWidth: int, width: string -> nat)
    requires forall i :: 0 <= i < |words| ==> IsWord(words[i])
    requires current == "" || IsLine(current)
    ensures Greedy(words, lines, current, maxWidth, width) == PlainGreedy(words, lines, current, maxWidth, width)
    decreases |words|
  {
    if |words| > 0 {
      StepIsPlain(words[0], lines, current, maxWidth, width);
      var (lines', current') := PlainStep(words[0], lines, current, maxWidth, width);
      GreedyIsPlain(words[1..], lines', current', maxWidth, width);
    }
  }

  // ---------------------------------------------------------------------------
  // Properties of one segment
  // ---------------------------------------------------------------------------

  /** One segment: a blank segment gives exactly one empty line; any other
      segment gives one or more packed lines (non-empty, single-spaced,
      over-wide only when a lone word is, greedily maximal); either way the
      lines hold exactly the segment's words in order. */
  lemma WrapSegmentSpec(segment: string, maxWidth: int, width: string -> nat)
    ensures var r := WrapSegment(segment, maxWidth, width);
      && |r| >= 1
      && (AllSpace(segment) <==> r == [""])
      && (!AllSpace(segment) ==> Packed(r, maxWidth, width))
      && WordsOf(r) == Words(segment)
  {
    var r := WrapSegment(segment, maxWidth, width);
    StripEmptyIffBlank(segment);
    WordsEmptyIffBlank(segment);
    if AllSpace(segment) {
      WordsOfSnoc([], "");
      WordsEmptyIffBlank("");
    } else {
      WordsAreWords(segment);
      GreedyIsPlain(Words(segment), [], "", maxWidth, width);
      GreedyPacks(Words(segment), [], "", maxWidth, width);
      GreedyWords(Words(segment), [], "", maxWidth, width);
      assert IsLine(r[0]);
    }
  }

  // ---------------------------------------------------------------------------
  // Properties of the whole message
  // ---------------------------------------------------------------------------

  lemma {:induction false} WordsOfAppend(a: seq<string>, b: seq<string>)
    ensures WordsOf(a + b) == WordsOf(a) + WordsOf(b)
    decreases |b|
  {
    if |b| == 0 {
      assert a + b == a;
    } else {
      var b' := b[..|b| - 1];
      var last := b[|b| - 1];
      assert (a + b)[..|a + b| - 1] == a + b';
      assert WordsOf(a + b) == WordsOf(a + b') + Words(last);
      assert WordsOf(b) == WordsOf(b') + Words(last);
      WordsOfAppend(a, b');
      assert WordsOf(a + b') + Words(last) == WordsOf(a) + (WordsOf(b') + Words(last));
    }
  }

  lemma {:induction false} FlatMapAppend(f: string -> seq<string>, xs: seq<string>, ys: seq<string>)
    ensures FlatMap(f, xs + ys) == FlatMap(f, xs) + FlatMap(f, ys)
    decreases |ys|
  {
    if |ys| == 0 {
      assert xs + ys == xs;
    } else {
      assert (xs + ys)[..|xs + ys| - 1] == xs + ys[..|ys| - 1];
      FlatMapAppend(f, xs, ys[..|ys| - 1]);
    }
  }

  /** Segment isolation: text on either side of a user line break is wrapped
      independently, so no output line mixes words from two segments. */
  lemma WrapMessageIsolation(a: string, b: string, maxWidth: int, width: string -> nat)
    ensures WrapMessage(a + "\n" + b, maxWidth, width) == WrapMessage(a, maxWidth, width) + WrapMessage(b, maxWidth, width)
  {
    assert a + "\n" + b == a + ['\n'] + b;
    SplitOnAppend(a, '\n', b);
    FlatMapAppend(Segmenter(maxWidth, width), SplitOn(a, '\n'), SplitOn(b, '\n'));
  }

  lemma {:induction false} WrapAllWords(segments: seq<string>, maxWidth: int, width: string -> nat)
    ensures WordsOf(FlatMap(Segmenter(maxWidth, width), segments)) == WordsOf(segments)
    decreases |segments|
  {
    if |segments| > 0 {
      var f := Segmenter(maxWidth, width);
      var init := segments[..|segments| - 1];
      var last := segments[|segments| - 1];
      WrapAllWords(init, maxWidth, width);
      WrapSegmentSpec(last, maxWidth, width);
      assert f(last) == WrapSegment(last, maxWidth, width);
      WordsOfAppend(FlatMap(f, init), f(last));
    }
  }

  lemma {:induction false} WordsOfLineBreaks(segments: seq<string>)
    requires |segments| >= 1
    ensures WordsOf(segments) == Words(Join(segments, '\n'))
    decreases |segments|
  {
    if |segments| == 1 {
      assert WordsOf(segments) == WordsOf([]) + Words(segments[0]);
    } else {
      var init := segments[..|segments| - 1];
      WordsOfLineBreaks(init);
      WordsSplitAtSpace(Join(init, '\n'), '\n', segments[|segments| - 1]);
    }
  }

  /** Word preservation: splitting all output lines on whitespace yields the
      message's words, in order, none dropped or duplicated. */
  lemma WrapMessageWords(message: string, maxWidth: int, width: string -> nat)
    ensures WordsOf(WrapMessage(message, maxWidth, width)) == Words(message)
  {
    var segments := SplitOn(message, '\n');
    WrapAllWords(segments, maxWidth, width);
    WordsOfLineBreaks(segments);
    JoinSplitOn(message, '\n');
  }

  /** How many of the lines are empty. */
  function EmptyCount(lines: seq<string>): nat
    decreases |lines|
  {
    if |lines| == 0 then 0
    else EmptyCount(lines[..|lines| - 1]) + (if lines[|lines| - 1] == "" then 1 else 0)
  }

  /** How many of the segments are blank. */
  function BlankCount(segments: seq<string>): nat
    decreases |segments|
  {
    if |segments| == 0 then 0
    else BlankCount(segments[..|segments| - 1]) + (if AllSpace(segments[|segments| - 1]) then 1 else 0)
  }

  lemma {:induction false} EmptyCountAppend(a: seq<string>, b: seq<string>)
    ensures EmptyCount(a + b) == EmptyCount(a) + EmptyCount(b)
    decreases |b|
  {
    if |b| == 0 {
      assert a + b == a;
    } else {
      assert (a + b)[..|a + b| - 1] == a + b[..|b| - 1];
      EmptyCountAppend(a, b[..|b| - 1]);
    }
  }

  lemma {:induction false} NoEmptyLines(lines: seq<string>)
    requires AllLines(lines)
    ensures EmptyCount(lines) == 0
    decreases |lines|
  {
    if |lines| > 0 {
      NoEmptyLines(lines[..|lines| - 1]);
      assert IsLine(lines[|lines| - 1]);
    }
  }

  lemma {:induction false} WrapAllCounts(segments: seq<string>, maxWidth: int, width: string -> nat)
    ensures |FlatMap(Segmenter(maxWidth, width), segments)| >= |segments|
    ensures EmptyCount(FlatMap(Segmenter(maxWidth, width), segments)) == BlankCount(segments)
    decreases |segments|
  {
    if |segments| > 0 {
      var f := Segmenter(maxWidth, width);
      var init := segments[..|segments| - 1];
      var last := segments[|segments| - 1];
      WrapAllCounts(init, maxWidth, width);
      WrapSegmentSpec(last, maxWidth, width);
      var r := WrapSegment(last, maxWidth, width);
      assert f(last) == r;
      EmptyCountAppend(FlatMap(f, init), r);
      if AllSpace(last) {
        assert EmptyCount(r) == EmptyCount([]) + 1;
      } else {
        NoEmptyLines(r);
      }
    }
  }

  /** Line counts: every segment yields at least one line, and the empty
      output lines are exactly the blank segments, one each. */
  lemma WrapMessageCounts(message: string, maxWidth: int, width: string -> nat)
    ensures |WrapMessage(message, maxWidth, width)| >= |SplitOn(message, '\n')|
    ensures EmptyCount(WrapMessage(message, maxWidth, width)) == BlankCount(SplitOn(message, '\n'))
  {
    WrapAllCounts(SplitOn(message, '\n'), maxWidth, width);
  }

  /** An empty user line between two pieces of text survives as exactly one
      empty output line, whatever the width limit and measure. */
  lemma BlankLineKept(a: string, b: string, maxWidth: int, width: string -> nat)
    ensures WrapMessage(a + "\n\n" + b, maxWidth, width)
         == WrapMessage(a, maxWidth, width) + [""] + WrapMessage(b, maxWidth, width)
  {
    var tail := "" + "\n" + b;
    DoubleBreak(a, b);
    WrapMessageIsolation(a, tail, maxWidth, width);
    WrapMessageIsolation("", b, maxWidth, width);
    WrapEmptyMessage(maxWidth, width);
    GlueBlank(WrapMessage(a, maxWidth, width), WrapMessage(tail, maxWidth, width), WrapMessage(b, maxWidth, width));
  }

  lemma GlueBlank(x: seq<string>, t: seq<string>, y: seq<string>)
    requires t == [""] + y
    ensures x + t == x + [""] + y
  {
  }

  lemma DoubleBreak(a: string, b: string)
    ensures a + "\n\n" + b == a + "\n" + ("" + "\n" + b)
  {
  }

  /** An empty message is one empty line. */
  lemma WrapEmptyMessage(maxWidth: int, width: string -> nat)
    ensures WrapMessage("", maxWidth, width) == [""]
  {
    assert SplitOn("", '\n') == [""];
    var f := Segmenter(maxWidth, width);
    assert f("") == WrapSegment("", maxWidth, width);
    StripEmptyIffBlank("");
    assert FlatMap(f, [""]) == FlatMap(f, []) + f("");
  }

  /** A segment holding a single word comes out as that word. */
  lemma OneWordSegment(w: string, maxWidth: int, width: string -> nat)
    requires IsWord(w)
    ensures WrapSegment(w, maxWidth, width) == [w]
  {
    WordsOfWord(w);
    StripEmptyIffBlank(w);
    assert !AllSpace(w) by { assert !IsSpace(w[0]); }
    assert Step(w, [], "", maxWidth, width) == ([], w);
    assert Greedy([w], [], "", maxWidth, width) == Greedy([], [], w, maxWidth, width);
  }
}
